=== FILE: README.md ===
# Certificate page extractor: a Dafny model

The repository holds two small tools that pull pages out of a PDF of
material test certificates.

- **The GUI tool** (`pdf_extractor_gui.py`) takes a field and a value. For each
  page it reads the direct text, or the OCR text when the direct text is
  missing or too short. It keeps every page whose text contains the value,
  ignoring case. For each kept page it extracts six fixed columns (FLANGE NO,
  HEAT NO, PLATE NO, PRODUCT NO, PART NO, TEST CERTIFICATE NO), each with one
  case-insensitive regular expression. It then names an output folder, a
  combined PDF and a summary sheet.
- **The console tool** (`extractor1.py`) discovers the field labels on the
  pages, written as `LABEL: value` lines. It lets the user pick a label by
  number and type a value, then finds the pages where the label, a colon and
  the value appear in that order, ignoring case. The blanks around the colon
  may include line breaks; the stretch from there to the value stays on one
  line. Finally it names the output file.

The model has these parts:

- `Text`: the string operations the tools use, namely `isspace`, `lower`,
  `upper`, `strip`, `replace` and substring `in`.
- `Regex`: the fragment of Python's `re` both tools rely on. It covers
  one-character classes with greedy `?`, `*` and `+`, IGNORECASE, `re.search`
  and `re.findall`. It is given twice: as the backtracking order Python
  follows (`Runs`) and as a declarative meaning (`IsRun`). A lemma proves the
  two agree.
- `Fields`: the GUI's fixed-schema extractor. The extractor as written runs
  through the regex engine. An independent hand-written scanner is proved to
  give the same value on every text.
- `PageSelection`: the GUI's page loop, covering OCR fallback, selection,
  rows, progress reports, folder name and output names.
- `Discovery`, `Sorting`: the console tool's `detect_fields`, including
  `sorted(set(...))` on strings.
- `Matcher`: the console tool's `find_matching_pages`. Its pattern is proved
  equivalent to a declarative shape: the field, blanks (line breaks
  allowed), a colon, blanks (line breaks allowed), characters of one line,
  then the value.
- `Naming`: the output names of both tools.
- `ConsoleSession`: the console tool's `main` once the page texts are read.
- `FieldExamples`, `SelectionExamples`, `MatcherExamples`, `ReportPages`,
  `BlankLabel`: worked
  examples, plus the general theorem that the detector reads back the keys
  of a page made of `KEY : value` lines.

Some facts about the code that the model keeps:

- The detector's label class is `[A-Z \./]`, so it includes `/`.
- A page whose direct extraction raises goes to OCR, like a page with no text.
- `extract_pdf_by_field` accepts an empty value, which then selects every
  page. The GUI's button handler strips the value and refuses an empty one
  before calling it (pdf_extractor_gui.py:147-150).
- The GUI's column vocabulary is the fixed constant `FIELDS`.
- The GUI's value test is a plain substring test over the whole page text.
- Each tool names its output files, and the model computes those names.
- The extraction and the console run are each modelled twice: exactly as
  written, and with the corrections listed under "## Findings".

## Model

| member | source | states |
|---|---|---|
| Text.Strip | pdf_extractor_gui.py:53 | `strip()` yields the slice of the input between leading and trailing whitespace, and the result neither starts nor ends with whitespace |
| Text.RemoveChar | pdf_extractor_gui.py:41 | `replace(' ', '')` keeps exactly the characters other than the removed one, in order, and its length drops by the number of occurrences |
| Text.ReplaceChar | extractor1.py:42 | `replace(a, b)` for single characters changes every `a` into `b` and nothing else |
| Text.Contains | pdf_extractor_gui.py:56 | Python's substring `in` holds exactly when the needle occurs at some position |
| Text.ContainsLowerIff | pdf_extractor_gui.py:56 | lower-casing both sides and testing `in` is the same as finding the needle at some position up to ASCII case |
| Text.StripBlank | extractor1.py:16 | a whitespace-only label strips to the empty string |
| Regex.RunsExact | pdf_extractor_gui.py:26 | the backtracking matcher lists exactly the runs the declarative meaning of the pattern allows |
| Regex.Search | pdf_extractor_gui.py:26 | `re.search` returns a real match at the leftmost position where the pattern can match, takes the engine's first run there, and returns nothing only when the pattern matches nowhere |
| Regex.FindAll | extractor1.py:14 | `findall` returns genuine matches in increasing, non-overlapping order, each taking the engine's first run at its start, and is empty exactly when the pattern matches nowhere |
| Regex.FindAllComplete | extractor1.py:14 | `findall` skips no match: the pattern matches nowhere before the first match, between two consecutive matches, or after the last |
| Regex.LitIgnoreCase | extractor1.py:30 | under IGNORECASE an escaped character matches exactly the characters equal to it up to ASCII case |
| Fields.SchemaWellFormed | pdf_extractor_gui.py:16-35 | the six patterns are well-formed and their columns are exactly `FIELDS`, in order |
| Fields.FieldValue | pdf_extractor_gui.py:25-27 | a column's value is "NA" or a non-empty run of letters, digits, `-` and `/` |
| Fields.GroupIsCapture | pdf_extractor_gui.py:27 | the capture group of a field pattern's match is a non-empty run of capture characters that `strip()` leaves alone |
| Fields.ExtractFields | pdf_extractor_gui.py:29-36 | the record always has one entry per name of `FIELDS`, in that order, however many labels the text contains |
| Fields.SearchIsScan | pdf_extractor_gui.py:26 | a field pattern's `re.search` fails exactly when the scanner finds no label followed by a value, and otherwise its capture group is the scanner's span |
| Fields.FirstRunAt | pdf_extractor_gui.py:30-35 | at one position, the engine's first run exists exactly when the label and a value are there, and it captures the scanner's span |
| Fields.ValueIsScan | pdf_extractor_gui.py:25-27 | `search(pattern)` returns the scanner's value: the capture after the leftmost label that is followed by a value, or "NA" |
| Fields.ScanShape | pdf_extractor_gui.py:27 | every value is "NA" or a non-empty run of letters, digits, `-` and `/` |
| Fields.ExtractFieldsMeaning | pdf_extractor_gui.py:24-36 | column k of the record is the scanner's value for the k-th label, and so is "NA" or a non-empty run of capture characters |
| Fields.CaptureUnstripped | pdf_extractor_gui.py:27 | the `.strip()` on a capture never changes it |
| Fields.AbsentLabel | pdf_extractor_gui.py:27 | a column whose first label word occurs nowhere in the text, ignoring case, is "NA" |
| Fields.HyphenBacktrack | pdf_extractor_gui.py:30 | when a `-` after the label is not followed by a value, the engine gives the `-` back to the capture group, so the value starts with `-` |
| FieldExamples.HeatExample | pdf_extractor_gui.py:31 | the text `HEAT NO: H123-A` yields `H123-A` in the HEAT NO column |
| FieldExamples.HeatOthersAbsent | pdf_extractor_gui.py:27-35 | on the text `HEAT NO: H123-A` every column other than HEAT NO is "NA" |
| FieldExamples.HyphenExample | pdf_extractor_gui.py:31 | the text `heat no-.` yields `-` in the HEAT NO column |
| PageSelection.PageText | pdf_extractor_gui.py:49-54 | a page is judged on its direct text when that strips to at least 20 characters, and on its OCR text otherwise, including when extraction failed or gave nothing |
| PageSelection.NeedsOcr | pdf_extractor_gui.py:49-53 | a page goes to OCR exactly when direct extraction gave nothing or raised, or its stripped text is shorter than 20; the emptiness test adds nothing |
| PageSelection.OcrThreshold | pdf_extractor_gui.py:53 | for text without surrounding whitespace, 19 characters go to OCR and 20 do not |
| PageSelection.Selects | pdf_extractor_gui.py:56 | a page is selected exactly when the value occurs in its text up to ASCII case |
| PageSelection.EmptyValueSelects | pdf_extractor_gui.py:56 | an empty value selects every page |
| PageSelection.PageTexts | pdf_extractor_gui.py:48-54 | there is one resolved text per page, in page order |
| PageSelection.SelectedBeforeSpec | pdf_extractor_gui.py:48-58 | the selected page indices are strictly increasing and contain exactly the pages the value selects |
| PageSelection.RowsOf | pdf_extractor_gui.py:57-58 | each summary row carries the one-based page number and the extracted fields of that page's text |
| PageSelection.SelectPages | pdf_extractor_gui.py:48-62 | the loop adds exactly the selecting pages, in increasing order, and reports `(i + 1, total)` after every page when a callback is present |
| PageSelection.ExtractByFieldAsWritten | pdf_extractor_gui.py:38-73 | the extraction as written: the folder, the rows of exactly the selected pages in page order, the progress reports; which pages are selected depends on the value alone, not the field; the two files are written only when some page matched, the combined one named from the value as typed; the count is the number of rows |
| PageSelection.ExtractByField | pdf_extractor_gui.py:38-73 | the corrected extraction: everything as written, except that the combined PDF is named from the sanitised value |
| SelectionExamples.OcrPageSelected | pdf_extractor_gui.py:53-56 | a page with empty direct text is judged on its OCR text `PLATE NO : P-9`, which the value `p-9` selects |
| SelectionExamples.EmptyDirectUsesOcr | pdf_extractor_gui.py:53-54 | a page whose direct text is empty is judged on its OCR text |
| SelectionExamples.PlateValueSelects | pdf_extractor_gui.py:56 | the value `p-9` selects the text `PLATE NO : P-9` |
| SelectionExamples.AbsentValueNotSelected | pdf_extractor_gui.py:56 | a value absent from the text in every case selects nothing |
| Naming.FolderName | pdf_extractor_gui.py:41 | the folder name is exactly the field with its spaces removed, `_`, then the value with every `/` turned into `-`; it has no slash when the field has none |
| Naming.FolderSameIff | pdf_extractor_gui.py:41 | two values of one field share a folder exactly when they agree up to slash versus dash |
| Naming.SameFolderSameValue | pdf_extractor_gui.py:41 | two values of one field that share a folder agree up to slash versus dash |
| Naming.SameValueSameFolder | pdf_extractor_gui.py:41 | two values that agree up to slash versus dash share the folder of any field |
| Naming.CombinedFileNameAsWritten | pdf_extractor_gui.py:65 | the combined PDF name as written is the lower-cased field without spaces, `-`, the value exactly as typed, then `.pdf` |
| Naming.CombinedKeepsSlash | pdf_extractor_gui.py:65-66 | as written, a slash in the value reaches the combined file name, though the folder name has none |
| Naming.CombinedSlashExample | pdf_extractor_gui.py:65 | HEAT NO with value `12/34` gives a combined name containing a slash |
| Naming.CombinedFileName | pdf_extractor_gui.py:65 | the corrected combined name is the lower-cased field without spaces, `-`, the value with every `/` turned into `-` as in the folder name, then `.pdf`; it is one path component for every slash-free field, and equals the name as written whenever the value has no slash |
| Naming.SafeValue | extractor1.py:42 | the sanitised value maps `/` to `-` and space to `_`, character by character |
| Naming.SafeValueClean | extractor1.py:42 | a sanitised value has no slash and no space, and sanitising is idempotent |
| Naming.OutputFileNameAsWritten | extractor1.py:42-43 | the output name as written is `Extracted_`, the field character by character with spaces as `_`, `_`, the sanitised value, then `.pdf` |
| Naming.OutputKeepsSlash | extractor1.py:43 | as written, the output name contains a slash exactly when the field does |
| Naming.OutputSlashExample | extractor1.py:43 | the label `S/N` with value `7` gives `Extracted_S/N_7.pdf` |
| Naming.OutputFileName | extractor1.py:42-43 | the corrected output name is `Extracted_`, the field sanitised like the value (`/` to `-`, space to `_`), `_`, the sanitised value, then `.pdf`; it never contains a slash, and equals the name as written for every slash-free field |
| Matcher.MatcherPattern | extractor1.py:30 | the compiled pattern is IGNORECASE, with one piece per character of the field, four for `\s*:\s*.*` and one per character of the value; what it matches is stated by Matcher.MatchableIff |
| Matcher.MatchableIff | extractor1.py:30 | the pattern can match from a position exactly when the field is there, then blanks, a colon, blanks, characters of one line, and the value |
| Matcher.PageMatches | extractor1.py:32 | `pattern.search(text)` is truthy exactly when the pattern can match from some position of the page |
| Matcher.PageMatchesIff | extractor1.py:32 | `pattern.search(text)` is truthy exactly when such an entry starts somewhere in the page |
| Matcher.CanonicalEntryMatches | extractor1.py:30-32 | a page holding `field: value` literally matches, with regex metacharacters in either taken literally |
| Matcher.MatchHasBoth | extractor1.py:30-32 | a matching page contains the field and, after it, the value, both up to case |
| MatcherExamples.LiteralPlusMatches | extractor1.py:30-32 | the value `A+B` matches itself after the field |
| MatcherExamples.PlusIsNotRepetition | extractor1.py:30-32 | the escaped value `A+B` does not match `AAB`, as the unescaped pattern would |
| Matcher.MatchedBeforeSpec | extractor1.py:31-33 | the matched page numbers are strictly increasing and contain exactly the matching pages |
| Matcher.FindMatchingPages | extractor1.py:28-34 | returns the page numbers of exactly the matching pages, in page order, each within the page count |
| Sorting.Insert | extractor1.py:12-16 | adding a label to an ascending set keeps it ascending and adds exactly that label |
| Sorting.SortedSet | extractor1.py:17 | `sorted(set(xs))` is ascending without duplicates and has exactly the members of `xs` |
| Sorting.AscendingUnique | extractor1.py:17 | an ascending list is determined by its members, so `sorted(set(...))` has only one possible result |
| Sorting.StrLtTotal | extractor1.py:17 | any two different strings are ordered one way or the other |
| Sorting.StrLtTrans | extractor1.py:17 | string order is transitive |
| Discovery.LabelOf | extractor1.py:15-16 | `key.strip().upper()` of a match's label group has only capitals, spaces, `.` and `/`, and no space at either end |
| Discovery.CleanLabel | extractor1.py:16 | stripping a run of label characters gives a label on which `upper()` changes nothing |
| Discovery.EntriesFrom | extractor1.py:14 | the detector's matches from a position are genuine, non-overlapping and in order, each ends where the engine's first run at its start ends, and there are none exactly when the pattern matches nowhere |
| Discovery.EntriesComplete | extractor1.py:14 | the detector's `findall` from a position skips no match |
| Discovery.Entries | extractor1.py:14 | `pattern.findall(text)` gives genuine, non-overlapping matches in order, each taking the engine's first (greedy) run at its start, and none exactly when the pattern matches nowhere |
| Discovery.EntriesSkipNone | extractor1.py:14 | `pattern.findall(text)` skips no match: none before the first, between two consecutive ones, or after the last |
| Discovery.Labels | extractor1.py:13-16 | a page's labels are well-formed, and there are none exactly when the detector matches nowhere on the page |
| Discovery.OnSomePageIff | extractor1.py:13-16 | a string is a label of the page list exactly when it is a label of one of its pages |
| Discovery.AllLabels | extractor1.py:12-16 | the collected labels are exactly the labels found on some page |
| Discovery.DetectFields | extractor1.py:10-17 | `detect_fields` is ascending without duplicates and contains exactly the labels found on some page |
| Discovery.DetectFieldsMembers | extractor1.py:10-17 | a string is a detected field exactly when it is the label of a match on some page |
| Discovery.OnePageFields | extractor1.py:10-17 | the fields of a single page are exactly its labels |
| Discovery.NoEntriesNoFields | extractor1.py:10-17 | pages on which the detector matches nowhere, and an empty page list, give no fields |
| Discovery.DetectNamedFields | extractor1.py:10-17 | the corrected detector is ascending and holds exactly the non-empty labels found on some page |
| Discovery.NamedFieldsIff | extractor1.py:10-17 | the correction only drops the empty label |
| Discovery.DetectorLine | extractor1.py:11 | on a `LABEL: value` line the detector's first run takes the whole label, the colon, the blanks and the value up to the line break |
| ReportPages.LinesFound | extractor1.py:14 | on consecutive `KEY : value` lines, `findall` finds one match per line, whose label group is the key and its space |
| ReportPages.PageLabels | extractor1.py:13-16 | on a page of well-formed `KEY : value` lines the detector reads back exactly the keys, in page order |
| ReportPages.PageFields | extractor1.py:10-17 | `detect_fields` of such a page holds exactly the keys of its lines |
| ReportPages.ReportFields | extractor1.py:10-17 | the page `FLANGE NO : F1\nHEAT NO : H1\n` gives exactly `["FLANGE NO", "HEAT NO"]` |
| BlankLabel.SizeLabels | extractor1.py:11-16 | the line `size : 10` gives the single label `""`, because the match starts at the space before the colon |
| BlankLabel.BlankFieldExample | extractor1.py:10-17 | as written, `detect_fields` offers `""` for the page `size : 10`; the corrected detector offers nothing |
| ConsoleSession.ChosenFieldAsWritten | extractor1.py:24-26 | Python's `fields[int(choice) - 1]` picks `fields[choice - 1]` for a choice from 1 to n, `fields[n + choice - 1]` for a choice from `-n + 1` to 0, and raises for any other choice |
| ConsoleSession.ChoiceZeroExample | extractor1.py:24-26 | as written, choice 0 on a two-entry menu picks the last field |
| ConsoleSession.ChosenField | extractor1.py:21-26 | the corrected choice picks entry `choice` of the menu numbered from 1, and nothing outside 1 to n |
| ConsoleSession.SessionAsWritten | extractor1.py:56-70 | the run as written stops with no fields, an index error, or no matches exactly in those cases; otherwise it writes exactly the matching pages, in order, to the file named as written after the chosen field and the stripped value |
| ConsoleSession.Session | extractor1.py:56-70 | the corrected run: only non-empty labels are offered, only a choice from 1 to n is accepted, and the file name is slash-free |

## Left out

- Reading PDFs (pdfplumber, PyPDF2), rendering pages to images and OCR (pdf2image, pytesseract). Each page is given as the outcome of direct extraction plus the text OCR would return.
- PageSelection.PageText, PageSelection.ExtractByFieldAsWritten: an exception from OCR is not modelled. At pdf_extractor_gui.py:54 `extract_text_with_ocr` runs outside the `try`, so a failing `convert_from_path` or `pytesseract` call ends the whole extraction at once: no result, no further pages or progress reports, and the folder made at line 43 stays behind; `_threaded_extraction` does not catch it either. The model gives every page an OCR text.
- Writing the combined PDF and the Excel summary, and creating folders (`os.makedirs`, `os.path.join`, pandas). The model computes the folder name, the file names and the rows that would be written.
- The GUI (customtkinter widgets, dialogs, the worker thread) and the console prompts. The console tool's number and typed value are parameters.
- `extract_text_from_pdf`, `create_output_pdf` and the file-existence check in `main` of `extractor1.py`. They are I/O only; only the name `create_output_pdf` builds is modelled.
- `int(input(...))` raising on non-numeric input. The choice is given as an integer.
- A page with no text layer in the console tool: pdfplumber returns `None`, and `findall(None)` raises. Page texts there are strings.
- `with gui.py`, an earlier variant of the GUI. It is not part of this model.
- Text.IsSpace, Text.Lower, Text.Upper: ASCII only. Python's `isspace`, `lower`, `upper`, `\s` and IGNORECASE also act on non-ASCII characters.
- PageSelection.ExtractByFieldAsWritten: when the combined name contains a slash, `open()` raises at pdf_extractor_gui.py:67; the member still returns the name as if the write succeeded, because writing files is not modelled.
- ConsoleSession.SessionAsWritten: when the output name contains a slash, `open()` raises at extractor1.py:44; the member still returns `Written` with that name, because writing files is not modelled.
- Fields.ExtractFields: states the record's shape only. The value of each column is stated by Fields.ExtractFieldsMeaning and Fields.ValueIsScan.

## Findings

| source | as written | input that shows it | evidently intended | confidence | as-written member | corrected member |
|---|---|---|---|---|---|---|
| pdf_extractor_gui.py:65 | the combined PDF name keeps any `/` of the value, while the folder name at line 41 replaces it | field `HEAT NO`, value `12/34` gives `heatno-12/34.pdf` inside folder `HEATNO_12-34`, a path through a sub-folder nobody creates | sanitise the value the way the folder name does | medium, not executed | Naming.CombinedFileNameAsWritten, Naming.CombinedSlashExample (used by PageSelection.ExtractByFieldAsWritten) | Naming.CombinedFileName (used by PageSelection.ExtractByField; the as-written extraction is PageSelection.ExtractByFieldAsWritten) |
| extractor1.py:43 | the output name replaces spaces in the field but keeps its slashes; detected labels may contain `/` | label `S/N`, value `7` gives `Extracted_S/N_7.pdf`, a path into a folder `Extracted_S` that does not exist | sanitise the field like the value | medium, not executed | Naming.OutputFileNameAsWritten, Naming.OutputSlashExample (used by ConsoleSession.SessionAsWritten) | Naming.OutputFileName (used by ConsoleSession.Session) |
| extractor1.py:11-16 | the label class has capitals only and no IGNORECASE, so on a lower-case label the match starts at the space before the colon and the label strips to `""` | the page `size : 10` gives the field list `[""]` | offer only non-empty labels | medium, not executed | Discovery.DetectFields, BlankLabel.BlankFieldExample (used by ConsoleSession.SessionAsWritten) | Discovery.DetectNamedFields (used by ConsoleSession.Session) |
| extractor1.py:24-26 | `int(input()) - 1` used as a list index: 0 and negative numbers count from the end instead of being refused | fields `["FLANGE NO", "HEAT NO"]`, choice 0, picks `HEAT NO` | accept only 1 to the number of fields | high, not executed | ConsoleSession.ChosenFieldAsWritten, ConsoleSession.ChoiceZeroExample (used by ConsoleSession.SessionAsWritten) | ConsoleSession.ChosenField (used by ConsoleSession.Session) |

=== FILE: blank_label.dfy ===
/** A label written in lower case: the detector's class has only capitals,
    so the match starts at the space before the colon and the label strips
    to the empty string. */
module BlankLabel {
  import opened Text
  import opened Regex
  import opened Sorting
  import opened Discovery

  const SizeLine := "size : 10"

  lemma SizeSearch()
    ensures Search(Detector, SizeLine, 0) == Some(Match(4, [5, 5, 6, 7, 9]))
  {
    var s := SizeLine;
    assert |s| == 9;
    DetectorLine(s, 4, 1, 1, 2);
    SearchHere(Detector, s, 4);
    forall q | 0 <= q < 4
      ensures Runs(DetectorPieces, false, s, q) == []
    {
      LabelRanges(s[q]);
      MandatoryBlocked(DetectorPieces, false, s, q);
    }
    SearchSkip(Detector, s, 3);
    SearchSkip(Detector, s, 2);
    SearchSkip(Detector, s, 1);
    SearchSkip(Detector, s, 0);
  }

  lemma SizeEntries()
    ensures Entries(SizeLine) == [Match(4, [5, 5, 6, 7, 9])]
  {
    var s := SizeLine;
    DetectorConsuming();
    SizeSearch();
    FindAllStep(Detector, s, 0);
    MandatoryBlocked(DetectorPieces, false, s, 9);
    assert Search(Detector, s, 9) == None;
    FindAllStep(Detector, s, 9);
  }

  lemma SizeLabels()
    ensures Labels(SizeLine) == [""]
  {
    var s := SizeLine;
    SizeEntries();
    var m := Entries(s)[0];
    assert m == Match(4, [5, 5, 6, 7, 9]);
    assert Group(s, m, 0) == " ";
    StripBlank(" ");
    assert LabelOf(s, m) == "";
    LabelsAre(s, [""]);
  }

  /** As written, `detect_fields` offers the empty string as a field of the
      line "size : 10"; without the empty label there is no field. */
  lemma BlankFieldExample()
    ensures DetectFields([SizeLine]) == [""]
    ensures DetectNamedFields([SizeLine]) == []
  {
    var s := SizeLine;
    var r := DetectNamedFields([s]);
    assert r == [] || r[0] in r;
    SizeLabels();
    forall x
      ensures x in DetectFields([s]) <==> x == ""
    {
      OnePageFields(s, x);
    }
    AscendingUnique(DetectFields([s]), [""]);
    NamedFieldsIff([s]);
  }
}

=== FILE: discovery.dfy ===
/** The console tool's field discovery: every non-overlapping match of
    `([A-Z \./]+)\s*:\s*([^\n]+)` (case-sensitive) on every page gives a
    label, the label is stripped and upper-cased, and the distinct labels
    are returned in ascending order. */
module Discovery {
  import opened Text
  import opened Regex
  import opened Sorting

  /** `[A-Z \./]` */
  const LabelClass: Class := Ranges([('A', 'Z'), (' ', ' '), ('.', '.'), ('/', '/')])

  /** `([A-Z \./]+)\s*:\s*([^\n]+)`; the first piece is the label group. */
  const DetectorPieces: seq<Piece> := [
    Piece(LabelClass, Plus), Piece(Space, Star), Piece(Lit(':'), One),
    Piece(Space, Star), Piece(NotNewline, Plus)]

  const Detector: Pattern := Pattern(DetectorPieces, false)

  predicate IsLabelChar(c: char) {
    IsUpper(c) || c == ' ' || c == '.' || c == '/'
  }

  /** What a detected label looks like: label characters only, and no space
      at either end. */
  predicate IsLabel(w: string) {
    (forall k :: 0 <= k < |w| ==> IsLabelChar(w[k]))
    && (|w| > 0 ==> w[0] != ' ' && w[|w| - 1] != ' ')
  }

  lemma LabelRanges(x: char)
    ensures InClass(LabelClass, false, x) <==> IsLabelChar(x)
  {
    var r0 := LabelClass.rs;
    var r1, r2, r3 := r0[1..], r0[2..], r0[3..];
    assert r1[1..] == r2 && r2[1..] == r3 && r3[1..] == [];
    assert InRanges(r3, x) <==> x == '/';
    assert InRanges(r2, x) <==> x == '.' || x == '/';
    assert InRanges(r1, x) <==> x == ' ' || x == '.' || x == '/';
  }

  /** Stripping a run of label characters and upper-casing it leaves a label,
      and the upper-casing changes nothing. */
  lemma CleanLabel(g: string)
    requires forall k :: 0 <= k < |g| ==> IsLabelChar(g[k])
    ensures IsLabel(Strip(g)) && UpperStr(Strip(g)) == Strip(g)
  {
    var r := Strip(g);
    var i: nat :| TrimmedAt(g, i, r);
    forall k | 0 <= k < |r|
      ensures IsLabelChar(r[k]) && Upper(r[k]) == r[k]
    {
      assert r[k] == g[i + k];
    }
  }

  /** The detector needs at least one character. */
  lemma DetectorConsuming()
    ensures Consuming(DetectorPieces)
  {
    assert Mandatory(DetectorPieces[0]);
  }

  /** `key.strip().upper()` for the label group of a match. */
  function LabelOf(text: string, m: Match): (w: string)
    requires IsRun(DetectorPieces, false, text, m.start, m.ends)
    ensures IsLabel(w)
  {
    assert SpanOk(DetectorPieces[0], false, text, m.start, m.ends[0]);
    var g := Group(text, m, 0);
    assert forall k :: 0 <= k < |g| ==> IsLabelChar(g[k]) by {
      forall k | 0 <= k < |g|
        ensures IsLabelChar(g[k])
      {
        assert g[k] == text[m.start + k];
        assert InClass(LabelClass, false, text[m.start + k]);
        LabelRanges(g[k]);
      }
    }
    CleanLabel(g);
    UpperStr(Strip(g))
  }

  /** The detector's successive matches from position `from` on. */
  function EntriesFrom(text: string, from: nat): (ms: seq<Match>)
    requires from <= |text|
    ensures forall j :: 0 <= j < |ms| ==>
      from <= ms[j].start < MatchEnd(ms[j]) <= |text| && IsRun(DetectorPieces, false, text, ms[j].start, ms[j].ends)
    ensures forall j, j' :: 0 <= j < j' < |ms| ==> MatchEnd(ms[j]) <= ms[j'].start
    ensures ms == [] <==> forall q :: from <= q <= |text| ==> !Matchable(Detector, text, q)
    ensures forall j :: 0 <= j < |ms| ==>
      Runs(DetectorPieces, false, text, ms[j].start) != []
      && ms[j].ends == Runs(DetectorPieces, false, text, ms[j].start)[0]
  {
    DetectorConsuming();
    FindAll(Detector, text, from)
  }

  /** The detector's matches from `from` on miss no match. */
  lemma EntriesComplete(text: string, from: nat)
    requires from <= |text|
    ensures NoneSkipped(Detector, text, from, EntriesFrom(text, from))
  {
    DetectorConsuming();
    FindAllComplete(Detector, text, from);
  }

  /** `pattern.findall(text)` for the detector. */
  function Entries(text: string): (ms: seq<Match>)
    ensures forall j :: 0 <= j < |ms| ==>
      ms[j].start < MatchEnd(ms[j]) <= |text| && IsRun(DetectorPieces, false, text, ms[j].start, ms[j].ends)
    ensures forall j, j' :: 0 <= j < j' < |ms| ==> MatchEnd(ms[j]) <= ms[j'].start
    ensures ms == [] <==> forall q :: 0 <= q <= |text| ==> !Matchable(Detector, text, q)
    ensures forall j :: 0 <= j < |ms| ==>
      Runs(DetectorPieces, false, text, ms[j].start) != []
      && ms[j].ends == Runs(DetectorPieces, false, text, ms[j].start)[0]
  {
    EntriesFrom(text, 0)
  }

  /** `pattern.findall(text)` misses no match of the detector. */
  lemma EntriesSkipNone(text: string)
    ensures NoneSkipped(Detector, text, 0, Entries(text))
  {
    EntriesComplete(text, 0);
  }

  /** A label group made of a label and the one space before the colon gives
      that label. */
  lemma LabelOfSpaced(text: string, m: Match, w: string)
    requires IsRun(DetectorPieces, false, text, m.start, m.ends)
    requires IsLabel(w) && |w| > 0
    requires Group(text, m, 0) == w + " "
    ensures LabelOf(text, m) == w
  {
    StripTrailingSpace(w);
    CleanLabel(w + " ");
  }

  /** The labels of one page, in the order `findall` returns the matches. A
      page gives none exactly when the pattern matches nowhere in it. */
  function Labels(text: string): (ls: seq<string>)
    ensures forall j :: 0 <= j < |ls| ==> IsLabel(ls[j])
    ensures ls == [] <==> forall q :: 0 <= q <= |text| ==> !Matchable(Detector, text, q)
  {
    var ms := Entries(text);
    seq(|ms|, j requires 0 <= j < |ms| => LabelOf(text, ms[j]))
  }

  /** The labels of a page are given by the labels of its matches. */
  lemma LabelsAre(text: string, ks: seq<string>)
    requires |Entries(text)| == |ks|
    requires forall j :: 0 <= j < |ks| ==> LabelOf(text, Entries(text)[j]) == ks[j]
    ensures Labels(text) == ks
  {
  }

  /** `x` is a label of one of the pages. */
  predicate OnSomePage(texts: seq<string>, x: string) {
    texts != [] && (x in Labels(texts[0]) || OnSomePage(texts[1..], x))
  }

  lemma {:induction false} OnSomePageIff(texts: seq<string>, x: string)
    ensures OnSomePage(texts, x) <==> exists t :: 0 <= t < |texts| && x in Labels(texts[t])
  {
    if texts != [] {
      OnSomePageIff(texts[1..], x);
      if exists t :: 0 <= t < |texts| && x in Labels(texts[t]) {
        var t :| 0 <= t < |texts| && x in Labels(texts[t]);
        if t > 0 {
          assert texts[1..][t - 1] == texts[t];
        }
      }
      if OnSomePage(texts[1..], x) {
        var t :| 0 <= t < |texts[1..]| && x in Labels(texts[1..][t]);
        assert texts[t + 1] == texts[1..][t];
      }
    }
  }

  /** The labels of all pages, page after page. */
  function AllLabels(texts: seq<string>): (ls: seq<string>)
    ensures forall x :: x in ls <==> OnSomePage(texts, x)
    ensures forall x :: x in ls ==> IsLabel(x)
  {
    if texts == [] then []
    else
      var here := Labels(texts[0]);
      assert forall x :: x in here ==> IsLabel(x);
      here + AllLabels(texts[1..])
  }

  /** `detect_fields`: the distinct labels of all pages, ascending. */
  function DetectFields(texts: seq<string>): (fields: seq<string>)
    ensures Ascending(fields)
    ensures forall x :: x in fields <==> OnSomePage(texts, x)
    ensures forall x :: x in fields ==> IsLabel(x)
  {
    SortedSet(AllLabels(texts))
  }

  /** The labels other than the empty one, in the same order. */
  function Named(ls: seq<string>): (r: seq<string>)
    ensures forall x :: x in r <==> x in ls && x != []
  {
    if ls == [] then []
    else
      assert forall x :: x in ls <==> x == ls[0] || x in ls[1..];
      (if ls[0] == [] then [] else [ls[0]]) + Named(ls[1..])
  }

  /** `detect_fields` without the empty label: the distinct non-empty labels
      of all pages, ascending. */
  function DetectNamedFields(texts: seq<string>): (fields: seq<string>)
    ensures Ascending(fields)
    ensures forall x :: x in fields <==> OnSomePage(texts, x) && x != []
    ensures forall x :: x in fields ==> IsLabel(x) && x != []
  {
    SortedSet(Named(AllLabels(texts)))
  }

  /** Dropping the empty label is all the correction changes. */
  lemma NamedFieldsIff(texts: seq<string>)
    ensures forall x :: x in DetectNamedFields(texts) <==> x in DetectFields(texts) && x != []
  {
  }

  /** A string is a detected field exactly when it is the label of a match
      on some page. */
  lemma DetectFieldsMembers(texts: seq<string>, x: string)
    ensures x in DetectFields(texts) <==> exists t :: 0 <= t < |texts| && x in Labels(texts[t])
  {
    OnSomePageIff(texts, x);
  }

  /** The fields of a single page are its labels. */
  lemma OnePageFields(text: string, x: string)
    ensures x in DetectFields([text]) <==> x in Labels(text)
  {
    assert [text][1..] == [];
  }

  /** Pages on which the pattern matches nowhere, and in particular no pages
      at all, give no fields. */
  lemma NoEntriesNoFields(texts: seq<string>)
    requires forall t, q :: 0 <= t < |texts| && 0 <= q <= |texts[t]| ==> !Matchable(Detector, texts[t], q)
    ensures DetectFields(texts) == []
  {
    var r := DetectFields(texts);
    assert r == [] || r[0] in r;
    forall x
      ensures x !in r
    {
      DetectFieldsMembers(texts, x);
      forall t | 0 <= t < |texts|
        ensures Labels(texts[t]) == []
      {
      }
    }
  }

  /** From the colon on: the colon, `u` spaces, then `w` characters up to the
      line break or the end of the text. */
  lemma {:induction false} DetectorTail(s: string, c: nat, u: nat, w: nat)
    requires w > 0 && c + 1 + u + w <= |s|
    requires s[c] == ':'
    requires forall t :: c + 1 <= t < c + 1 + u ==> IsSpace(s[t])
    requires !IsSpace(s[c + 1 + u])
    requires forall t :: c + 1 + u <= t < c + 1 + u + w ==> s[t] != '\n'
    requires c + 1 + u + w == |s| || s[c + 1 + u + w] == '\n'
    ensures Runs(DetectorPieces[2..], false, s, c) != []
    ensures Runs(DetectorPieces[2..], false, s, c)[0] == [c + 1, c + 1 + u, c + 1 + u + w]
  {
    var ps := DetectorPieces[2..];
    var v := c + 1 + u;
    RunLenExact(Space, false, s, c + 1, u);
    RunLenExact(NotNewline, false, s, v, w);
    assert ps[2..] == [ps[2]] && ps[1..][1..] == ps[2..];
    LastPlus(ps[2], false, s, v);
    GreedyFirst(ps[1..], false, s, c + 1);
    RunsOne(ps, false, s, c);
  }

  /** A `LABEL: value` line: `n` label characters right before the colon, `u`
      spaces, then `w` characters up to the line break or the end of the
      text. The first run the detector finds from the label's start takes the
      whole label, no spaces before the colon, the colon, the spaces and the
      whole value. */
  lemma DetectorLine(s: string, i: nat, n: nat, u: nat, w: nat)
    requires n > 0 && w > 0 && i + n + 1 + u + w <= |s|
    requires forall t :: i <= t < i + n ==> IsLabelChar(s[t])
    requires s[i + n] == ':'
    requires forall t :: i + n + 1 <= t < i + n + 1 + u ==> IsSpace(s[t])
    requires !IsSpace(s[i + n + 1 + u])
    requires forall t :: i + n + 1 + u <= t < i + n + 1 + u + w ==> s[t] != '\n'
    requires i + n + 1 + u + w == |s| || s[i + n + 1 + u + w] == '\n'
    ensures Runs(DetectorPieces, false, s, i) != []
    ensures Runs(DetectorPieces, false, s, i)[0] == [i + n, i + n, i + n + 1, i + n + 1 + u, i + n + 1 + u + w]
  {
    var ps := DetectorPieces;
    var c := i + n;
    forall t | i <= t < c
      ensures InClass(LabelClass, false, s[t])
    {
      LabelRanges(s[t]);
    }
    LabelRanges(s[c]);
    RunLenExact(LabelClass, false, s, i, n);
    RunLenExact(Space, false, s, c, 0);
    DetectorTail(s, c, u, w);
    assert ps[1..][1..] == ps[2..];
    GreedyFirst(ps[1..], false, s, c);
    GreedyFirst(ps, false, s, i);
  }
}

=== FILE: field_examples.dfy ===
/** Worked examples of the field extractor on concrete page texts. */
module FieldExamples {
  import opened Text
  import opened Regex
  import opened Fields

  lemma HeatLabel(s: string)
    requires s == "HEAT NO: H123-A" || s == "heat no-."
    ensures LabelEnd(["HEAT", "NO"], Star, s, 0) == Some(7)
  {
    assert CiAt(s, 0, "HEAT");
    assert SpaceRun(s, 4) == 1;
    assert CiAt(s, 5, "NO");
    assert LabelEnd(["NO"], Star, s, 5) == Some(7);
  }

  /** A column of the record is named after its label and holds the
      scanner's value. */
  lemma ColumnIsScan(text: string, k: nat, v: string)
    requires k < |FieldNames| && WellFormed(Schema[k]) && Scan(Schema[k], text) == v
    ensures ExtractFields(text)[k] == (FieldNames[k], v)
  {
    ExtractFieldsMeaning(text, k);
  }

  lemma HeatScan()
    ensures Scan(Schema[1], "HEAT NO: H123-A") == "H123-A"
  {
    var s := "HEAT NO: H123-A";
    HeatLabel(s);
    HeatCapture();
    assert ScanFrom(Schema[1], s, 0) == Some((0, (9, 15)));
  }

  lemma HeatCapture()
    ensures CaptureAfterLabel("HEAT NO: H123-A", 7) == Some((9, 15))
  {
    var s := "HEAT NO: H123-A";
    assert SpaceRun(s, 8) == 1;
    assert CaptureRun(s, 9) == 6;
  }

  lemma HyphenScan()
    ensures Scan(Schema[1], "heat no-.") == "-"
  {
    var s := "heat no-.";
    HeatLabel(s);
    assert SpaceRun(s, 8) == 0;
    assert CaptureRun(s, 8) == 0;
    assert CaptureFrom(s, 8).None?;
    assert SpaceRun(s, 7) == 0;
    assert CaptureRun(s, 7) == 1;
    assert CaptureAfterLabel(s, 7) == Some((7, 8));
    assert ScanFrom(Schema[1], s, 0) == Some((0, (7, 8)));
  }

  /** A page reading `HEAT NO: H123-A` yields `H123-A` in the HEAT NO
      column. */
  lemma HeatExample()
    ensures ExtractFields("HEAT NO: H123-A")[1] == ("HEAT NO", "H123-A")
  {
    HeatName();
    HeatScan();
    SchemaWellFormed();
    ColumnIsScan("HEAT NO: H123-A", 1, "H123-A");
  }

  /** The column names are the constant's entries. */
  lemma HeatName()
    ensures FieldNames[1] == "HEAT NO"
  {
  }

  /** The text `HEAT NO: H123-A` has no `F`, `P` or `S`, so none of the
      other five labels occurs in it. */
  lemma HeatLineLacks(k: nat)
    requires k < |Schema| && k != 1
    ensures forall p: nat :: !CiAt("HEAT NO: H123-A", p, Schema[k].words[0])
  {
    var s := "HEAT NO: H123-A";
    var w := Schema[k].words[0];
    var j := if k == 5 then 2 else 0;
    assert j < |w| && Lower(w[j]) in "fps";
    forall t | 0 <= t < |s|
      ensures Lower(s[t]) != Lower(w[j])
    {
      var c := s[t];
      assert c in "HEAT NO: H123-A";
    }
    CharAbsent(s, w, j);
  }

  /** On the page `HEAT NO: H123-A` every column other than HEAT NO is
      "NA". */
  lemma HeatOthersAbsent(k: nat)
    requires k < |FieldNames| && k != 1
    ensures ExtractFields("HEAT NO: H123-A")[k] == (FieldNames[k], Sentinel)
  {
    ExtractFieldsMeaning("HEAT NO: H123-A", k);
    HeatLineLacks(k);
    AbsentLabel(Schema[k], "HEAT NO: H123-A");
  }

  /** A `-` separator followed by a character that cannot start a value is
      itself the value. */
  lemma HyphenExample()
    ensures ExtractFields("heat no-.")[1] == ("HEAT NO", "-")
  {
    HeatName();
    HyphenScan();
    SchemaWellFormed();
    ColumnIsScan("heat no-.", 1, "-");
  }
}

=== FILE: fields.dfy ===
/** The fixed-schema field extractor of the GUI tool: the six column names
    `FIELDS` and `extract_fields_from_text`, which runs one case-insensitive
    pattern `LABEL\s*NO[:\-]?\s*([A-Z0-9\-/]+)` per column and keeps the
    stripped capture of the leftmost match, or "NA".

    The six patterns are one data-driven table (`Schema`). `FieldValue` runs
    a pattern through the regex engine; `Scan` is an independent hand-written
    scanner (skip the label, look at the separator, take the longest run of
    capture characters), and `ValueIsScan` proves the two agree, including
    the case where the engine has to backtrack over a `-`. */
module Fields {
  import opened Text
  import opened Regex

  /** One column: its name, the words of its label and the whitespace allowed
      between the words (`\s*` is `Star`, `\s+` is `Plus`). */
  datatype FieldSpec = FieldSpec(name: string, words: seq<string>, gap: Quant)

  /** The value of a field whose pattern does not match. */
  const Sentinel: string := "NA"

  const FieldNames: seq<string> :=
    ["FLANGE NO", "HEAT NO", "PLATE NO", "PRODUCT NO", "PART NO", "TEST CERTIFICATE NO"]

  /** The six patterns; only the last one uses `\s+` between its words. */
  const Schema: seq<FieldSpec> := [
    FieldSpec("FLANGE NO", ["FLANGE", "NO"], Star),
    FieldSpec("HEAT NO", ["HEAT", "NO"], Star),
    FieldSpec("PLATE NO", ["PLATE", "NO"], Star),
    FieldSpec("PRODUCT NO", ["PRODUCT", "NO"], Star),
    FieldSpec("PART NO", ["PART", "NO"], Star),
    FieldSpec("TEST CERTIFICATE NO", ["TEST", "CERTIFICATE", "NO"], Plus)
  ]

  /** `[A-Z0-9\-\/]` */
  const CaptureClass: Class := Ranges([('A', 'Z'), ('0', '9'), ('-', '-'), ('/', '/')])

  /** `[:\-]` */
  const SepClass: Class := Ranges([(':', ':'), ('-', '-')])

  /** What `[A-Z0-9\-\/]` accepts under IGNORECASE. */
  predicate IsCaptureChar(c: char) {
    IsUpper(c) || IsLower(c) || '0' <= c <= '9' || c == '-' || c == '/'
  }

  predicate WellFormedWords(words: seq<string>, gap: Quant) {
    words != []
    && (forall k :: 0 <= k < |words| ==> words[k] != [] && !IsSpace(words[k][0]))
    && (gap == Star || gap == Plus)
  }

  predicate WellFormed(spec: FieldSpec) {
    WellFormedWords(spec.words, spec.gap)
  }

  lemma SchemaWellFormed()
    ensures forall k :: 0 <= k < |Schema| ==> WellFormed(Schema[k])
    ensures |Schema| == |FieldNames|
    ensures forall k :: 0 <= k < |Schema| ==> Schema[k].name == FieldNames[k]
  {
  }

  // ---------------------------------------------------------------------
  // The patterns, for the regex engine

  /** The label: the words as escaped literals with a whitespace gap between
      consecutive words. */
  function LabelPieces(words: seq<string>, gap: Quant): seq<Piece>
    requires words != []
    decreases |words|
  {
    Lits(words[0]) + (if |words| == 1 then [] else [Piece(Space, gap)] + LabelPieces(words[1..], gap))
  }

  /** `[:\-]?\s*([A-Z0-9\-\/]+)` */
  const SepPart: seq<Piece> := [Piece(SepClass, Opt), Piece(Space, Star), Piece(CaptureClass, Plus)]

  function FieldPattern(spec: FieldSpec): Pattern
    requires WellFormed(spec)
  {
    Pattern(LabelPieces(spec.words, spec.gap) + SepPart, true)
  }

  /** The capture group is the last piece of the pattern. */
  function CaptureIndex(spec: FieldSpec): nat
    requires WellFormed(spec)
  {
    |LabelPieces(spec.words, spec.gap)| + 2
  }

  /** The capture group of a match of a field pattern is a slice of the text. */
  lemma MatchGroup(spec: FieldSpec, text: string, m: Match)
    requires WellFormed(spec)
    requires IsRun(FieldPattern(spec).pieces, true, text, m.start, m.ends)
    ensures CaptureIndex(spec) < |m.ends|
    ensures PieceStart(m.start, m.ends, CaptureIndex(spec)) <= m.ends[CaptureIndex(spec)] <= |text|
  {
    var ps := FieldPattern(spec).pieces;
    var g := CaptureIndex(spec);
    IsRunPieces(ps, true, text, m.start, m.ends);
    assert SpanOk(ps[g], true, text, PieceStart(m.start, m.ends, g), m.ends[g]);
  }

  /** The capture group of a match is a non-empty run of capture characters,
      which stripping leaves alone. */
  lemma GroupIsCapture(spec: FieldSpec, text: string, m: Match)
    requires WellFormed(spec)
    requires IsRun(FieldPattern(spec).pieces, true, text, m.start, m.ends)
    ensures CaptureIndex(spec) < |m.ends|
    ensures PieceStart(m.start, m.ends, CaptureIndex(spec)) <= m.ends[CaptureIndex(spec)] <= |text|
    ensures var v := Group(text, m, CaptureIndex(spec));
      |v| > 0 && (forall k :: 0 <= k < |v| ==> IsCaptureChar(v[k])) && Strip(v) == v
  {
    var ps := FieldPattern(spec).pieces;
    var g := CaptureIndex(spec);
    IsRunPieces(ps, true, text, m.start, m.ends);
    assert ps[g] == SepPart[2] by {
      var labels := LabelPieces(spec.words, spec.gap);
      assert ps == labels + SepPart;
    }
    SpanIsCapture(text, PieceStart(m.start, m.ends, g), m.ends[g]);
  }

  /** A span the capture piece consumes is a non-empty run of capture
      characters, which stripping leaves alone. */
  lemma SpanIsCapture(s: string, a: nat, b: nat)
    requires SpanOk(Piece(CaptureClass, Plus), true, s, a, b)
    ensures a < b <= |s|
    ensures var v := s[a..b];
      |v| > 0 && (forall k :: 0 <= k < |v| ==> IsCaptureChar(v[k])) && Strip(v) == v
  {
    CaptureClassIff();
    forall t | a <= t < b
      ensures IsCaptureChar(s[t])
    {
      assert InClass(CaptureClass, true, s[t]);
    }
    CaptureUnstripped(s, a, b);
    var v := s[a..b];
    forall k | 0 <= k < |v|
      ensures IsCaptureChar(v[k])
    {
      assert v[k] == s[a + k];
    }
  }

  /** `search(pattern)` in `extract_fields_from_text`: the stripped capture of
      the leftmost match, or the sentinel; either way the sentinel or a
      non-empty run of capture characters. */
  function FieldValue(spec: FieldSpec, text: string): (r: string)
    requires WellFormed(spec)
    ensures r == Sentinel || (|r| > 0 && forall k :: 0 <= k < |r| ==> IsCaptureChar(r[k]))
  {
    match Search(FieldPattern(spec), text, 0)
    case None => Sentinel
    case Some(m) =>
      GroupIsCapture(spec, text, m);
      Strip(Group(text, m, CaptureIndex(spec)))
  }

  /** `extract_fields_from_text`: the columns in `FIELDS` order, each with its
      value. */
  function ExtractFields(text: string): (r: seq<(string, string)>)
    ensures |r| == |FieldNames|
    ensures forall k :: 0 <= k < |r| ==> r[k].0 == FieldNames[k]
  {
    SchemaWellFormed();
    seq(|Schema|, k requires 0 <= k < |Schema| => (Schema[k].name, FieldValue(Schema[k], text)))
  }

  // ---------------------------------------------------------------------
  // The hand-written scanner

  /** Length of the run of capture characters that starts at `i`. */
  function CaptureRun(s: string, i: nat): (n: nat)
    requires i <= |s|
    ensures i + n <= |s|
    decreases |s| - i
  {
    if i < |s| && IsCaptureChar(s[i]) then 1 + CaptureRun(s, i + 1) else 0
  }

  /** The run is made of capture characters and cannot be extended. */
  lemma {:induction false} CaptureRunSpec(s: string, i: nat)
    requires i <= |s|
    ensures forall t {:trigger IsCaptureChar(s[t])} :: i <= t < i + CaptureRun(s, i) ==> IsCaptureChar(s[t])
    ensures i + CaptureRun(s, i) == |s| || !IsCaptureChar(s[i + CaptureRun(s, i)])
    decreases |s| - i
  {
    if i < |s| && IsCaptureChar(s[i]) {
      CaptureRunSpec(s, i + 1);
    }
  }

  /** The first word is at `p` and the whitespace after it is enough for
      the gap. */
  predicate HeadOk(words: seq<string>, gap: Quant, s: string, p: nat)
    requires words != []
  {
    CiAt(s, p, words[0]) && (gap == Star || SpaceRun(s, p + |words[0]|) > 0)
  }

  /** Where the next word starts: after the first word and all the
      whitespace that follows it. */
  function NextWord(words: seq<string>, s: string, p: nat): (e: nat)
    requires words != [] && CiAt(s, p, words[0])
    ensures p + |words[0]| <= e <= |s|
  {
    p + |words[0]| + SpaceRun(s, p + |words[0]|)
  }

  /** Where the label ends when its words, compared ignoring case and
      separated by the allowed whitespace, start at `p`. */
  function LabelEnd(words: seq<string>, gap: Quant, s: string, p: nat): (q: Option<nat>)
    requires words != [] && p <= |s|
    ensures q.Some? ==> p <= q.value <= |s| && CiAt(s, p, words[0])
    decreases |words|
  {
    if |words| == 1 then (if CiAt(s, p, words[0]) then Some(p + |words[0]|) else None)
    else if HeadOk(words, gap, s, p) then LabelEnd(words[1..], gap, s, NextWord(words, s, p))
    else None
  }

  /** From `e`: skip whitespace, then take the longest run of capture
      characters, which must not be empty. */
  function CaptureFrom(s: string, e: nat): (c: Option<(nat, nat)>)
    requires e <= |s|
    ensures c.Some? ==> e <= c.value.0 < c.value.1 <= |s|
    ensures c.Some? ==> forall t {:trigger IsCaptureChar(s[t])} :: c.value.0 <= t < c.value.1 ==> IsCaptureChar(s[t])
    ensures c.Some? ==> c.value.1 == |s| || !IsCaptureChar(s[c.value.1])
  {
    var j := e + SpaceRun(s, e);
    CaptureRunSpec(s, j);
    if CaptureRun(s, j) > 0 then Some((j, j + CaptureRun(s, j))) else None
  }

  /** The capture after a label ending at `q`: after a `:` or `-`, if one
      is there, and any whitespace, the longest run of capture characters;
      failing that, the same without taking the separator. */
  function CaptureAfterLabel(s: string, q: nat): (c: Option<(nat, nat)>)
    requires q <= |s|
    ensures c.Some? ==> q <= c.value.0 < c.value.1 <= |s|
    ensures c.Some? ==> forall t {:trigger IsCaptureChar(s[t])} :: c.value.0 <= t < c.value.1 ==> IsCaptureChar(s[t])
    ensures c.Some? ==> c.value.1 == |s| || !IsCaptureChar(s[c.value.1])
  {
    if q < |s| && (s[q] == ':' || s[q] == '-') && CaptureFrom(s, q + 1).Some? then CaptureFrom(s, q + 1)
    else CaptureFrom(s, q)
  }

  /** The capture the scanner finds for a label starting at `p`, if any. */
  function CaptureAt(spec: FieldSpec, s: string, p: nat): Option<(nat, nat)>
    requires WellFormed(spec) && p <= |s|
  {
    match LabelEnd(spec.words, spec.gap, s, p)
    case None => None
    case Some(q) => CaptureAfterLabel(s, q)
  }

  /** The first position from `from` on where the label and a capture both
      succeed, with the capture's span. */
  function ScanFrom(spec: FieldSpec, s: string, from: nat): (h: Option<(nat, (nat, nat))>)
    requires WellFormed(spec) && from <= |s|
    ensures h.Some? ==> from <= h.value.0 <= |s| && CaptureAt(spec, s, h.value.0) == Some(h.value.1)
    ensures h.Some? ==> forall p :: from <= p < h.value.0 ==> CaptureAt(spec, s, p).None?
    ensures h.None? ==> forall p :: from <= p <= |s| ==> CaptureAt(spec, s, p).None?
    decreases |s| - from
  {
    var c := CaptureAt(spec, s, from);
    if c.Some? then Some((from, c.value))
    else if from == |s| then None
    else ScanFrom(spec, s, from + 1)
  }

  /** The scanner's answer for a whole page. */
  function Scan(spec: FieldSpec, s: string): string
    requires WellFormed(spec)
  {
    match ScanFrom(spec, s, 0)
    case None => Sentinel
    case Some((_, (a, b))) => s[a..b]
  }

  // ---------------------------------------------------------------------
  // The engine and the scanner agree

  /** The class accepts exactly the capture characters under IGNORECASE. */
  predicate CapturesLike(cls: Class) {
    forall c {:trigger InClass(cls, true, c)} :: InClass(cls, true, c) <==> IsCaptureChar(c)
  }

  /** The class accepts exactly `:` and `-` under IGNORECASE. */
  predicate SeparatesLike(cls: Class) {
    forall c {:trigger InClass(cls, true, c)} :: InClass(cls, true, c) <==> c == ':' || c == '-'
  }

  /** The four ranges of `[A-Z0-9\-\/]`, one at a time. */
  lemma CaptureRanges(x: char)
    ensures RawIn(CaptureClass, x) <==> IsUpper(x) || '0' <= x <= '9' || x == '-' || x == '/'
  {
    var r0 := CaptureClass.rs;
    var r1, r2, r3 := r0[1..], r0[2..], r0[3..];
    assert r1[1..] == r2 && r2[1..] == r3 && r3[1..] == [];
    assert InRanges(r3, x) <==> x == '/';
    assert InRanges(r2, x) <==> x == '-' || x == '/';
    assert InRanges(r1, x) <==> '0' <= x <= '9' || x == '-' || x == '/';
  }

  lemma CaptureClassIff()
    ensures CapturesLike(CaptureClass)
  {
    forall c
      ensures InClass(CaptureClass, true, c) <==> IsCaptureChar(c)
    {
      CaptureRanges(c);
      CaptureRanges(Lower(c));
      CaptureRanges(Upper(c));
    }
  }

  lemma SepRanges(x: char)
    ensures RawIn(SepClass, x) <==> x == ':' || x == '-'
  {
    var r0 := SepClass.rs;
    var r1 := r0[1..];
    assert r1[1..] == [];
    assert InRanges(r1, x) <==> x == '-';
  }

  lemma SepClassIff()
    ensures SeparatesLike(SepClass)
  {
    forall c
      ensures InClass(SepClass, true, c) <==> c == ':' || c == '-'
    {
      SepRanges(c);
      SepRanges(Lower(c));
      SepRanges(Upper(c));
    }
  }

  lemma {:induction false} CaptureRunLen(cls: Class, s: string, i: nat)
    requires CapturesLike(cls) && i <= |s|
    ensures RunLen(cls, true, s, i) == CaptureRun(s, i)
    decreases |s| - i
  {
    if i < |s| && IsCaptureChar(s[i]) {
      CaptureRunLen(cls, s, i + 1);
    }
  }

  lemma {:induction false} SpaceRunLen(s: string, i: nat)
    requires i <= |s|
    ensures RunLen(Space, true, s, i) == SpaceRun(s, i)
    decreases |s| - i
  {
    if i < |s| && IsSpace(s[i]) {
      SpaceRunLen(s, i + 1);
    }
  }

  /** `([A-Z0-9\-\/]+)` at the end of the pattern takes the longest run. */
  lemma CaptureRuns(p: Piece, s: string, j: nat)
    requires p.q == Plus && CapturesLike(p.cls) && j <= |s|
    ensures Runs([p], true, s, j) != [] <==> CaptureRun(s, j) > 0
    ensures CaptureRun(s, j) > 0 ==> Runs([p], true, s, j)[0] == [j + CaptureRun(s, j)]
  {
    CaptureRunLen(p.cls, s, j);
    LastPlus(p, true, s, j);
  }

  /** Inside a whitespace run the capture cannot start. */
  lemma SpaceBlocksCapture(p: Piece, s: string, t: nat)
    requires p.q == Plus && CapturesLike(p.cls) && t < |s| && IsSpace(s[t])
    ensures Runs([p], true, s, t) == []
  {
    assert !IsCaptureChar(s[t]);
    MandatoryBlocked([p], true, s, t);
  }

  /** `\s*([A-Z0-9\-\/]+)`: whitespace is never a capture character, so the
      whitespace run is taken whole. */
  lemma SpaceThenCapture(ps: seq<Piece>, last: seq<Piece>, s: string, j: nat)
    requires |ps| == 2 && ps[0] == Piece(Space, Star) && last == ps[1..]
    requires ps[1].q == Plus && CapturesLike(ps[1].cls)
    requires j <= |s|
    ensures Runs(ps, true, s, j) == Prepend(j + SpaceRun(s, j), Runs(last, true, s, j + SpaceRun(s, j)))
  {
    var w := SpaceRun(s, j);
    SpaceRunLen(s, j);
    SpaceRunSpec(s, j);
    assert last == [ps[1]];
    forall t | j + 0 <= t < j + w
      ensures Runs(last, true, s, t) == []
    {
      SpaceBlocksCapture(ps[1], s, t);
    }
    RunsGreedy(ps, true, s, j);
    GreedyOnlyLongest(ps, true, s, j, w, 0);
    assert Runs(ps, true, s, j) == Greedy(ps, true, s, j, w, 0);
    assert Greedy(ps, true, s, j, w, 0) == Continue(ps, true, s, j + w);
  }

  /** Shape of `[:\-]?\s*([A-Z0-9\-\/]+)` as pieces. */
  predicate SepShape(ps: seq<Piece>) {
    |ps| == 3 && ps[0].q == Opt && SeparatesLike(ps[0].cls)
    && ps[1] == Piece(Space, Star) && ps[2].q == Plus && CapturesLike(ps[2].cls)
  }

  /** Once the separator has stopped at `e`, the whitespace is taken whole and
      the capture is the longest run after it. */
  lemma ContinueSep(ps: seq<Piece>, s: string, e: nat)
    requires |ps| == 3 && ps[1] == Piece(Space, Star) && ps[2].q == Plus && CapturesLike(ps[2].cls)
    requires e <= |s|
    ensures Continue(ps, true, s, e) != [] <==> CaptureFrom(s, e).Some?
    ensures CaptureFrom(s, e).Some? ==>
      Continue(ps, true, s, e)[0] == [e, CaptureFrom(s, e).value.0, CaptureFrom(s, e).value.1]
  {
    var j := e + SpaceRun(s, e);
    var tail := ps[1..];
    var last := [ps[2]];
    assert tail[1..] == last;
    SpaceThenCapture(tail, last, s, e);
    CaptureRuns(ps[2], s, j);
    var L := Runs(last, true, s, j);
    var M := Prepend(j, L);
    assert Continue(ps, true, s, e) == Prepend(e, M);
    if CaptureRun(s, j) > 0 {
      assert L[0] == [j + CaptureRun(s, j)];
      assert M[0] == [j] + L[0];
      assert Prepend(e, M)[0] == [e] + M[0];
      assert [e] + ([j] + [j + CaptureRun(s, j)]) == [e, j, j + CaptureRun(s, j)];
    } else {
      assert L == [];
    }
  }

  /** The first run of `[:\-]?\s*([A-Z0-9\-\/]+)` from `q` captures exactly
      what the scanner captures. */
  lemma SepPartFirst(ps: seq<Piece>, s: string, q: nat)
    requires SepShape(ps) && q <= |s|
    ensures Runs(ps, true, s, q) != [] <==> CaptureAfterLabel(s, q).Some?
    ensures CaptureAfterLabel(s, q).Some? ==>
      |Runs(ps, true, s, q)[0]| == 3
      && Runs(ps, true, s, q)[0][1] == CaptureAfterLabel(s, q).value.0
      && Runs(ps, true, s, q)[0][2] == CaptureAfterLabel(s, q).value.1
  {
    var sep := q < |s| && (s[q] == ':' || s[q] == '-');
    assert RunLen(ps[0].cls, true, s, q) >= 1 <==> sep by {
      if q < |s| {
        assert InClass(ps[0].cls, true, s[q]) <==> s[q] == ':' || s[q] == '-';
      }
    }
    RunsOpt(ps, true, s, q);
    ContinueSep(ps, s, q);
    if sep {
      ContinueSep(ps, s, q + 1);
    }
  }

  /** A literal that is not whitespace never takes whitespace, even when
      case is ignored. */
  lemma LitTakesNoSpace(x: char)
    requires !IsSpace(x)
    ensures forall c {:trigger InClass(Lit(x), true, c)} :: IsSpace(c) ==> !InClass(Lit(x), true, c)
  {
    forall c | IsSpace(c)
      ensures !InClass(Lit(x), true, c)
    {
      LitIgnoreCase(x, c);
    }
  }

  /** The first word of a label of several words and the gap after it. */
  lemma LabelHead(words: seq<string>, gap: Quant, t: seq<Piece>, s: string, p: nat)
    requires WellFormedWords(words, gap) && |words| >= 2 && p <= |s|
    ensures WellFormedWords(words[1..], gap)
    ensures !HeadOk(words, gap, s, p) ==> Runs(LabelPieces(words, gap) + t, true, s, p) == []
    ensures HeadOk(words, gap, s, p) ==>
      DropsTo(Runs(LabelPieces(words, gap) + t, true, s, p), |words[0]| + 1,
              Runs(LabelPieces(words[1..], gap) + t, true, s, NextWord(words, s, p)))
  {
    var w0 := words[0];
    var R := LabelPieces(words[1..], gap);
    var rest := [Piece(Space, gap)] + (R + t);
    assert LabelPieces(words, gap) + t == Lits(w0) + rest;
    assert rest[1..] == R + t;
    assert words[1..][0] == words[1];
    assert rest[1] == Piece(Lit(words[1][0]), One);
    LitTakesNoSpace(words[1][0]);
    LitsAtIgnoreCase(s, p, w0);
    LitsThenGap(w0, rest, true, s, p);
    var L := Runs(LabelPieces(words, gap) + t, true, s, p);
    assert L == Runs(Lits(w0) + rest, true, s, p);
    if CiAt(s, p, w0) {
      var n := RunLen(Space, true, s, p + |w0|);
      SpaceRunLen(s, p + |w0|);
      if HeadOk(words, gap, s, p) {
        assert p + |w0| + n == NextWord(words, s, p);
        assert DropsTo(L, |w0| + 1, Runs(rest[1..], true, s, p + |w0| + n));
      }
    }
  }

  /** The label's pieces only add their own positions in front of the runs of
      what follows, and succeed exactly where `LabelEnd` does. */
  lemma {:induction false} LabelPrefix(words: seq<string>, gap: Quant, t: seq<Piece>, s: string, p: nat)
    requires WellFormedWords(words, gap) && p <= |s|
    ensures LabelEnd(words, gap, s, p).None? ==> Runs(LabelPieces(words, gap) + t, true, s, p) == []
    ensures LabelEnd(words, gap, s, p).Some? ==>
      DropsTo(Runs(LabelPieces(words, gap) + t, true, s, p), |LabelPieces(words, gap)|,
              Runs(t, true, s, LabelEnd(words, gap, s, p).value))
    decreases |words|
  {
    var w0 := words[0];
    if |words| == 1 {
      assert LabelPieces(words, gap) + t == Lits(w0) + t;
      LitsAtIgnoreCase(s, p, w0);
      LitsPrefix(w0, t, true, s, p);
    } else {
      LabelHead(words, gap, t, s, p);
      if HeadOk(words, gap, s, p) {
        var e := NextWord(words, s, p);
        var R := LabelPieces(words[1..], gap);
        var L := Runs(LabelPieces(words, gap) + t, true, s, p);
        var X := Runs(R + t, true, s, e);
        LabelPrefix(words[1..], gap, t, s, e);
        var le := LabelEnd(words[1..], gap, s, e);
        assert LabelEnd(words, gap, s, p) == le;
        if le.Some? {
          assert |LabelPieces(words, gap)| == |w0| + 1 + |R|;
          DropsToTrans(L, |w0| + 1, X, |R|, Runs(t, true, s, le.value));
          assert DropsTo(L, |LabelPieces(words, gap)|, Runs(t, true, s, le.value));
        } else {
          assert X == [];
        }
      }
    }
  }

  /** At one position, the engine's first run of a field pattern exists
      exactly when the scanner finds a label and a capture there, and its
      capture group is the scanner's span. */
  lemma FirstRunAt(spec: FieldSpec, s: string, p: nat)
    requires WellFormed(spec) && p <= |s|
    ensures Runs(FieldPattern(spec).pieces, true, s, p) != [] <==> CaptureAt(spec, s, p).Some?
    ensures CaptureAt(spec, s, p).Some? ==>
      var r := Runs(FieldPattern(spec).pieces, true, s, p)[0];
      var g := CaptureIndex(spec);
      |r| == g + 1 && (PieceStart(p, r, g), r[g]) == CaptureAt(spec, s, p).value
  {
    LabelPrefix(spec.words, spec.gap, SepPart, s, p);
    var q := LabelEnd(spec.words, spec.gap, s, p);
    if q.Some? {
      CaptureClassIff();
      SepClassIff();
      SepPartFirst(SepPart, s, q.value);
    }
  }

  /** `re.search` with a field pattern finds the scanner's position and span. */
  lemma {:induction false} SearchIsScan(spec: FieldSpec, s: string, from: nat)
    requires WellFormed(spec) && from <= |s|
    ensures Search(FieldPattern(spec), s, from).None? <==> ScanFrom(spec, s, from).None?
    ensures Search(FieldPattern(spec), s, from).Some? ==>
      var m := Search(FieldPattern(spec), s, from).value;
      var g := CaptureIndex(spec);
      |m.ends| == g + 1 && (PieceStart(m.start, m.ends, g), m.ends[g]) == ScanFrom(spec, s, from).value.1
    decreases |s| - from
  {
    FirstRunAt(spec, s, from);
    if CaptureAt(spec, s, from).None? && from < |s| {
      SearchIsScan(spec, s, from + 1);
    }
  }

  /** A span the scanner captures has no whitespace at either end, so
      stripping it changes nothing. */
  lemma CaptureUnstripped(s: string, a: nat, b: nat)
    requires a < b <= |s|
    requires forall t {:trigger IsCaptureChar(s[t])} :: a <= t < b ==> IsCaptureChar(s[t])
    ensures Strip(s[a..b]) == s[a..b]
  {
    assert IsCaptureChar(s[a]) && IsCaptureChar(s[b - 1]);
    StripNoSpace(s[a..b]);
  }

  /** The extractor's value for a column is the scanner's: the leftmost label
      followed by a capture wins, and the value is that capture. */
  lemma ValueIsScan(spec: FieldSpec, text: string)
    requires WellFormed(spec)
    ensures FieldValue(spec, text) == Scan(spec, text)
  {
    SearchIsScan(spec, text, 0);
    var found := Search(FieldPattern(spec), text, 0);
    if found.Some? {
      var m := found.value;
      var h := ScanFrom(spec, text, 0).value;
      var (a, b) := h.1;
      MatchGroup(spec, text, m);
      assert Group(text, m, CaptureIndex(spec)) == text[a..b];
      assert CaptureAt(spec, text, h.0) == Some((a, b));
      CaptureUnstripped(text, a, b);
    }
  }

  /** Every value is the sentinel or a non-empty run of capture characters. */
  lemma ScanShape(spec: FieldSpec, text: string)
    requires WellFormed(spec)
    ensures var r := Scan(spec, text);
      r == Sentinel || (|r| > 0 && forall k :: 0 <= k < |r| ==> IsCaptureChar(r[k]))
  {
    var h := ScanFrom(spec, text, 0);
    if h.Some? {
      var (a, b) := h.value.1;
      assert CaptureAt(spec, text, h.value.0) == Some((a, b));
      forall k | 0 <= k < b - a
        ensures IsCaptureChar(text[a..b][k])
      {
        assert text[a..b][k] == text[a + k];
      }
    }
  }

  /** What `extract_fields_from_text` returns, column by column: the
      scanner's capture for the column's label, and so either "NA" or a
      non-empty run of capture characters. */
  lemma ExtractFieldsMeaning(text: string, k: nat)
    requires k < |FieldNames|
    ensures WellFormed(Schema[k]) && ExtractFields(text)[k].1 == Scan(Schema[k], text)
    ensures var v := ExtractFields(text)[k].1;
      v == Sentinel || (|v| > 0 && forall j :: 0 <= j < |v| ==> IsCaptureChar(v[j]))
  {
    SchemaWellFormed();
    ValueIsScan(Schema[k], text);
    ScanShape(Schema[k], text);
  }

  /** A column whose first label word occurs nowhere in the text, ignoring
      case, gets the sentinel. */
  lemma AbsentLabel(spec: FieldSpec, s: string)
    requires WellFormed(spec)
    requires forall p: nat :: !CiAt(s, p, spec.words[0])
    ensures Scan(spec, s) == Sentinel
  {
    forall p | 0 <= p <= |s|
      ensures CaptureAt(spec, s, p).None?
    {
      assert LabelEnd(spec.words, spec.gap, s, p).None?;
    }
  }

  /** Backtracking over the separator: when a `-` after the label is not
      followed (after whitespace) by a capture character, the engine gives
      the `-` back to the capture group, so the value starts with `-`. */
  lemma HyphenBacktrack(spec: FieldSpec, s: string, p: nat)
    requires WellFormed(spec) && p <= |s|
    requires LabelEnd(spec.words, spec.gap, s, p).Some?
    requires var q := LabelEnd(spec.words, spec.gap, s, p).value;
      q < |s| && s[q] == '-' && CaptureRun(s, q + 1 + SpaceRun(s, q + 1)) == 0
    ensures Runs(FieldPattern(spec).pieces, true, s, p) != []
    ensures var r := Runs(FieldPattern(spec).pieces, true, s, p)[0];
      var g := CaptureIndex(spec);
      var q := LabelEnd(spec.words, spec.gap, s, p).value;
      |r| == g + 1 && PieceStart(p, r, g) == q && r[g] == q + CaptureRun(s, q)
      && s[PieceStart(p, r, g)] == '-'
  {
    FirstRunAt(spec, s, p);
  }
}

=== FILE: matcher.dfy ===
/** The console tool's page search: a page matches when, ignoring case, the
    chosen field is followed by optional whitespace, a colon, optional
    whitespace, any characters of one line, and then the searched value.
    Both the field and the value are escaped, so they match literally. */
module Matcher {
  import opened Text
  import opened Regex

  /** `\s*:\s*.*` between the escaped field and the escaped value. */
  const Gap: seq<Piece> :=
    [Piece(Space, Star), Piece(Lit(':'), One), Piece(Space, Star), Piece(NotNewline, Star)]

  /** The compiled search pattern, with IGNORECASE. */
  function MatcherPattern(field: string, value: string): (p: Pattern)
    ensures p.ignoreCase && |p.pieces| == |field| + 4 + |value|
  {
    Pattern(Lits(field) + Gap + Lits(value), true)
  }

  /** `s[a..b]` is all whitespace (line breaks included). */
  predicate Blank(s: string, a: nat, b: nat) {
    a <= b <= |s| && forall t :: a <= t < b ==> IsSpace(s[t])
  }

  /** `s[a..b]` stays on one line. */
  predicate SameLine(s: string, a: nat, b: nat) {
    a <= b <= |s| && forall t :: a <= t < b ==> s[t] != '\n'
  }

  /** The field at `q`, whitespace up to a colon at `a`, whitespace up to `b`,
      one line's worth of anything up to `e`, and the value at `e`. */
  predicate EntryAt(s: string, field: string, value: string, q: nat, a: nat, b: nat, e: nat) {
    CiAt(s, q, field) && Blank(s, q + |field|, a) && a < |s| && s[a] == ':'
    && Blank(s, a + 1, b) && SameLine(s, b, e) && CiAt(s, e, value)
  }

  ghost predicate EntryFrom(s: string, field: string, value: string, q: nat) {
    exists a: nat, b: nat, e: nat :: EntryAt(s, field, value, q, a, b, e)
  }

  // ---------------------------------------------------------------------
  // The pattern's pieces, one at a time

  lemma SpanSpace(s: string, a: nat, b: nat)
    ensures SpanOk(Piece(Space, Star), true, s, a, b) <==> Blank(s, a, b)
  {
    if a <= b <= |s| {
      forall t | a <= t < b
        ensures InClass(Space, true, s[t]) <==> IsSpace(s[t])
      {
        if InClass(Space, true, s[t]) {
          SpaceNotSpace(s[t], true);
        }
      }
    }
  }

  lemma SpanLine(s: string, a: nat, b: nat)
    ensures SpanOk(Piece(NotNewline, Star), true, s, a, b) <==> SameLine(s, a, b)
  {
    if a <= b <= |s| {
      forall t | a <= t < b
        ensures InClass(NotNewline, true, s[t]) <==> s[t] != '\n'
      {
      }
    }
  }

  lemma SpanColon(s: string, a: nat, b: nat)
    ensures SpanOk(Piece(Lit(':'), One), true, s, a, b) <==> b == a + 1 && a < |s| && s[a] == ':'
  {
    if b == a + 1 && a < |s| {
      LitIgnoreCase(':', s[a]);
      assert InClass(Lit(':'), true, s[a]) <==> s[a] == ':';
    }
  }

  /** How the four middle pieces can match from `i`. */
  lemma GapRun(s: string, i: nat, m: seq<nat>)
    ensures IsRun(Gap, true, s, i, m) <==>
      |m| == 4 && Blank(s, i, m[0]) && m[0] < |s| && s[m[0]] == ':' && m[1] == m[0] + 1
      && Blank(s, m[1], m[2]) && SameLine(s, m[2], m[3])
  {
    if |m| == 4 {
      SpanSpace(s, i, m[0]);
      SpanColon(s, m[0], m[1]);
      SpanSpace(s, m[1], m[2]);
      SpanLine(s, m[2], m[3]);
      assert Gap[1..][1..][1..][1..] == [];
      assert m[1..][1..][1..][1..] == [];
      assert IsRun(Gap, true, s, i, m) <==>
        SpanOk(Gap[0], true, s, i, m[0]) && SpanOk(Gap[1], true, s, m[0], m[1])
        && SpanOk(Gap[2], true, s, m[1], m[2]) && SpanOk(Gap[3], true, s, m[2], m[3]);
    }
  }

  lemma EndOfSteps(i: nat, n: nat)
    ensures EndOf(i, Steps(i, n)) == i + n
  {
  }

  /** A run of the whole pattern from `q` is an entry starting at `q`. */
  lemma {:induction false} RunIsEntry(s: string, field: string, value: string, q: nat, r: seq<nat>)
    requires q <= |s|
    requires IsRun(Lits(field) + Gap + Lits(value), true, s, q, r)
    ensures EntryAt(s, field, value, q, r[|field|], r[|field| + 2], r[|field| + 3])
  {
    var x, y := Lits(field) + Gap, Lits(value);
    var nf := |field|;
    IsRunAppend(x, y, true, s, q, r);
    var r1, r2 := r[..nf + 4], r[nf + 4..];
    IsRunAppend(Lits(field), Gap, true, s, q, r1);
    IsRunLits(field, true, s, q, r1[..nf]);
    EndOfSteps(q, nf);
    var m := r1[nf..];
    GapRun(s, q + nf, m);
    assert EndOf(q, r1) == m[3];
    IsRunLits(value, true, s, m[3], r2);
    LitsAtIgnoreCase(s, q, field);
    LitsAtIgnoreCase(s, m[3], value);
    assert m == [r[nf], r[nf + 1], r[nf + 2], r[nf + 3]];
  }

  /** An entry starting at `q` gives a run of the whole pattern from `q`. */
  lemma {:induction false} EntryIsRun(s: string, field: string, value: string, q: nat, a: nat, b: nat, e: nat)
    requires EntryAt(s, field, value, q, a, b, e)
    ensures IsRun(Lits(field) + Gap + Lits(value), true, s, q, Steps(q, |field|) + [a, a + 1, b, e] + Steps(e, |value|))
  {
    var x, y := Lits(field) + Gap, Lits(value);
    var nf := |field|;
    var m := [a, a + 1, b, e];
    var r1 := Steps(q, nf) + m;
    var r2 := Steps(e, |value|);
    LitsAtIgnoreCase(s, q, field);
    LitsAtIgnoreCase(s, e, value);
    IsRunLits(field, true, s, q, Steps(q, nf));
    EndOfSteps(q, nf);
    GapRun(s, q + nf, m);
    assert r1[..nf] == Steps(q, nf) && r1[nf..] == m;
    IsRunAppend(Lits(field), Gap, true, s, q, r1);
    assert EndOf(q, r1) == e;
    IsRunLits(value, true, s, e, r2);
    assert (r1 + r2)[..nf + 4] == r1 && (r1 + r2)[nf + 4..] == r2;
    IsRunAppend(x, y, true, s, q, r1 + r2);
  }

  /** The declarative form of a match from `q`. */
  lemma MatchableIff(s: string, field: string, value: string, q: nat)
    requires q <= |s|
    ensures Matchable(MatcherPattern(field, value), s, q) <==> EntryFrom(s, field, value, q)
  {
    var p := MatcherPattern(field, value);
    if Matchable(p, s, q) {
      var r :| IsRun(p.pieces, true, s, q, r);
      RunIsEntry(s, field, value, q, r);
    }
    if EntryFrom(s, field, value, q) {
      var a: nat, b: nat, e: nat :| EntryAt(s, field, value, q, a, b, e);
      EntryIsRun(s, field, value, q, a, b, e);
    }
  }

  // ---------------------------------------------------------------------
  // One page

  /** `pattern.search(text)` is truthy: the pattern matches from some
      position of the page. */
  function PageMatches(text: string, field: string, value: string): (b: bool)
    ensures b <==> exists q: nat :: q <= |text| && Matchable(MatcherPattern(field, value), text, q)
  {
    var m := Search(MatcherPattern(field, value), text, 0);
    assert m.Some? ==> Matchable(MatcherPattern(field, value), text, m.value.start);
    m.Some?
  }

  /** A page matches exactly when an entry "field : ... value" starts
      somewhere in it. */
  lemma PageMatchesIff(text: string, field: string, value: string)
    ensures PageMatches(text, field, value) <==> exists q: nat :: q <= |text| && EntryFrom(text, field, value, q)
  {
    var p := MatcherPattern(field, value);
    var m := Search(p, text, 0);
    if m.Some? {
      MatchableIff(text, field, value, m.value.start);
      assert Matchable(p, text, m.value.start);
    } else {
      forall q: nat | q <= |text|
        ensures !EntryFrom(text, field, value, q)
      {
        MatchableIff(text, field, value, q);
      }
    }
  }

  /** A page holding the field, a colon, a space and the value matches. */
  lemma CanonicalEntryMatches(text: string, i: nat, field: string, value: string)
    requires OccursAt(text, i, field + ": " + value)
    ensures PageMatches(text, field, value)
  {
    var w := field + ": " + value;
    var nf := |field|;
    assert text[i..i + |w|] == w;
    assert CiAt(text, i, field) by {
      forall k | 0 <= k < nf
        ensures text[i + k] == field[k]
      {
        assert text[i..i + |w|][k] == w[k];
      }
    }
    assert CiAt(text, i + nf + 2, value) by {
      forall k | 0 <= k < |value|
        ensures text[i + nf + 2 + k] == value[k]
      {
        assert text[i..i + |w|][nf + 2 + k] == w[nf + 2 + k];
      }
    }
    assert text[i + nf] == w[nf] == ':';
    assert text[i + nf + 1] == w[nf + 1] == ' ';
    assert EntryAt(text, field, value, i, i + nf, i + nf + 2, i + nf + 2);
    assert i <= |text| && EntryFrom(text, field, value, i);
    PageMatchesIff(text, field, value);
  }

  /** A match means the field occurs, and the value occurs after it and
      after a colon. */
  lemma MatchHasBoth(text: string, field: string, value: string)
    requires PageMatches(text, field, value)
    ensures exists q: nat, e: nat :: q + |field| < e && CiAt(text, q, field) && CiAt(text, e, value)
  {
    PageMatchesIff(text, field, value);
    var q: nat :| q <= |text| && EntryFrom(text, field, value, q);
    var a: nat, b: nat, e: nat :| EntryAt(text, field, value, q, a, b, e);
    assert q + |field| < e;
  }

  // ---------------------------------------------------------------------
  // All pages

  /** Indices of the pages before `n` that match, in page order. */
  function MatchedBefore(texts: seq<string>, field: string, value: string, n: nat): (s: seq<nat>)
    requires n <= |texts|
    ensures forall j :: 0 <= j < |s| ==> s[j] < n
  {
    if n == 0 then []
    else
      var found := if PageMatches(texts[n - 1], field, value) then [n - 1] else [];
      MatchedBefore(texts, field, value, n - 1) + found
  }

  lemma {:induction false} MatchedBeforeSpec(texts: seq<string>, field: string, value: string, n: nat)
    requires n <= |texts|
    ensures forall j, k :: 0 <= j < k < |MatchedBefore(texts, field, value, n)| ==>
      MatchedBefore(texts, field, value, n)[j] < MatchedBefore(texts, field, value, n)[k]
    ensures forall t :: 0 <= t < n ==>
      (t in MatchedBefore(texts, field, value, n) <==> PageMatches(texts[t], field, value))
  {
    if n > 0 {
      MatchedBeforeSpec(texts, field, value, n - 1);
      var p := MatchedBefore(texts, field, value, n - 1);
      var s := MatchedBefore(texts, field, value, n);
      assert s == p + (if PageMatches(texts[n - 1], field, value) then [n - 1] else []);
      forall t | 0 <= t < n
        ensures t in s <==> PageMatches(texts[t], field, value)
      {
        if t < n - 1 {
          assert t in s <==> t in p;
        }
      }
    }
  }

  /** The page numbers (positions in the page list) of the matching pages,
      in page order. */
  method FindMatchingPages(texts: seq<string>, field: string, value: string) returns (matched: seq<nat>)
    ensures forall j :: 0 <= j < |matched| ==> matched[j] < |texts|
    ensures forall j, k :: 0 <= j < k < |matched| ==> matched[j] < matched[k]
    ensures forall t :: 0 <= t < |texts| ==> (t in matched <==> PageMatches(texts[t], field, value))
  {
    matched := [];
    var i := 0;
    while i < |texts|
      invariant 0 <= i <= |texts|
      invariant matched == MatchedBefore(texts, field, value, i)
    {
      if PageMatches(texts[i], field, value) {
        matched := matched + [i];
      }
      i := i + 1;
    }
    MatchedBeforeSpec(texts, field, value, |texts|);
  }
}

=== FILE: matcher_examples.dfy ===
/** Worked examples of the console tool's page search. */
module MatcherExamples {
  import opened Text
  import opened Matcher

  /** The value `A+B` is escaped: it matches itself after the field. */
  lemma LiteralPlusMatches()
    ensures PageMatches("HEAT NO: A+B", "HEAT NO", "A+B")
  {
    var s := "HEAT NO: A+B";
    assert s == "HEAT NO" + ": " + "A+B";
    assert OccursAt(s, 0, "HEAT NO" + ": " + "A+B");
    CanonicalEntryMatches(s, 0, "HEAT NO", "A+B");
  }

  /** Read as a pattern `A+B` would match `AAB`; escaped, it does not. */
  lemma PlusIsNotRepetition()
    ensures !PageMatches("HEAT NO: AAB", "HEAT NO", "A+B")
  {
    var s := "HEAT NO: AAB";
    forall t | 0 <= t < |s|
      ensures Lower(s[t]) != Lower("A+B"[1])
    {
      var c := s[t];
      assert c in "HEAT NO: AAB";
    }
    CharAbsent(s, "A+B", 1);
    if PageMatches(s, "HEAT NO", "A+B") {
      MatchHasBoth(s, "HEAT NO", "A+B");
    }
  }
}

=== FILE: naming.dfy ===
/** The names under which the two tools write their output: the GUI's output
    folder and combined PDF, and the console tool's single output file. */
module Naming {
  import opened Text

  /** `s` has no path separator, so it names one path component. */
  predicate SlashFree(s: string) {
    forall k :: 0 <= k < |s| ==> s[k] != '/'
  }

  /** `a` and `b` are equal once every slash is read as a dash. */
  predicate SameUpToSlash(a: string, b: string) {
    |a| == |b| && forall k :: 0 <= k < |a| ==> (a[k] == b[k] || (a[k] in "/-" && b[k] in "/-"))
  }

  /** The output folder of the GUI extraction: the field without its spaces,
      an underscore, then the value with slashes replaced by dashes. For a
      field without slashes (every field the GUI offers) the folder is one
      path component. */
  function FolderName(field: string, value: string): (r: string)
    ensures |r| == |field| - Count(field, ' ') + 1 + |value|
    ensures SlashFree(field) ==> SlashFree(r)
    ensures forall k :: 0 <= k < |field| - Count(field, ' ') ==> r[k] != ' '
    ensures r[|field| - Count(field, ' ')] == '_'
    ensures r[..|field| - Count(field, ' ')] == RemoveChar(field, ' ')
    ensures r[|field| - Count(field, ' ') + 1..] == ReplaceChar(value, '/', '-')
  {
    var f := RemoveChar(field, ' ');
    IsSubseqChars(f, field);
    f + "_" + ReplaceChar(value, '/', '-')
  }

  /** Every character of a subsequence occurs in the longer sequence. */
  lemma {:induction false} IsSubseqChars(a: string, b: string)
    requires IsSubseq(a, b)
    ensures forall k :: 0 <= k < |a| ==> a[k] in b
    decreases |b|
  {
    if a != [] && b != [] {
      if a[0] == b[0] {
        IsSubseqChars(a[1..], b[1..]);
        forall k | 0 <= k < |a|
          ensures a[k] in b
        {
          if k > 0 { assert a[k] == a[1..][k - 1]; }
        }
      } else {
        IsSubseqChars(a, b[1..]);
      }
    }
  }

  /** Two values of the same field share a folder exactly when they agree up
      to slash versus dash: "12/34" and "12-34" are written to the same place. */
  lemma FolderSameIff(field: string, v1: string, v2: string)
    ensures FolderName(field, v1) == FolderName(field, v2) <==> SameUpToSlash(v1, v2)
  {
    if FolderName(field, v1) == FolderName(field, v2) {
      SameFolderSameValue(field, v1, v2);
    }
    if SameUpToSlash(v1, v2) {
      SameValueSameFolder(field, v1, v2);
    }
  }

  /** Values that agree up to slash versus dash share the folder. */
  lemma SameValueSameFolder(field: string, v1: string, v2: string)
    requires SameUpToSlash(v1, v2)
    ensures FolderName(field, v1) == FolderName(field, v2)
  {
    var a, b := ReplaceChar(v1, '/', '-'), ReplaceChar(v2, '/', '-');
    forall k | 0 <= k < |a|
      ensures a[k] == b[k]
    {
      assert v1[k] in "/-" ==> v1[k] == '/' || v1[k] == '-';
      assert v2[k] in "/-" ==> v2[k] == '/' || v2[k] == '-';
    }
    assert a == b;
  }

  /** One folder for one field means the values agree up to slash versus
      dash. */
  lemma SameFolderSameValue(field: string, v1: string, v2: string)
    requires FolderName(field, v1) == FolderName(field, v2)
    ensures SameUpToSlash(v1, v2)
  {
    var a, b := ReplaceChar(v1, '/', '-'), ReplaceChar(v2, '/', '-');
    assert a == b;
    forall k | 0 <= k < |v1|
      ensures v1[k] == v2[k] || (v1[k] in "/-" && v2[k] in "/-")
    {
      assert a[k] == b[k];
    }
  }

  /** The combined PDF name exactly as the GUI builds it: the lower-cased field
      without spaces, a dash, then the value as typed, slashes included. */
  function CombinedFileNameAsWritten(field: string, value: string): (r: string)
    ensures |r| == |field| - Count(LowerStr(field), ' ') + |value| + 5
    ensures r[|r| - 4..] == ".pdf"
    ensures r[..|field| - Count(LowerStr(field), ' ')] == RemoveChar(LowerStr(field), ' ')
    ensures r[|field| - Count(LowerStr(field), ' ')] == '-'
    ensures r[|r| - 4 - |value|..|r| - 4] == value
  {
    RemoveChar(LowerStr(field), ' ') + "-" + value + ".pdf"
  }

  /** As written, a slash in the value survives into the file name, so the
      combined PDF lands in a sub-folder of the output folder that nothing
      creates, while the folder name of the same value has none. */
  lemma CombinedKeepsSlash(field: string, value: string)
    requires !SlashFree(value)
    ensures !SlashFree(CombinedFileNameAsWritten(field, value))
    ensures SlashFree(field) ==> SlashFree(FolderName(field, value))
  {
    var r := CombinedFileNameAsWritten(field, value);
    var k :| 0 <= k < |value| && value[k] == '/';
    assert r[|r| - 4 - |value|..|r| - 4][k] == '/';
  }

  /** The value "12/34" of the field "HEAT NO": the combined name as written
      carries the slash. */
  lemma CombinedSlashExample()
    ensures !SlashFree(CombinedFileNameAsWritten("HEAT NO", "12/34"))
  {
    assert "12/34"[2] == '/';
    CombinedKeepsSlash("HEAT NO", "12/34");
  }

  /** Lower-casing and dropping spaces brings in no slash. */
  lemma FieldPartSlashFree(field: string)
    requires SlashFree(field)
    ensures SlashFree(RemoveChar(LowerStr(field), ' '))
  {
    var l := LowerStr(field);
    assert SlashFree(l) by {
      forall k | 0 <= k < |l|
        ensures l[k] != '/'
      {
        assert l[k] == Lower(field[k]);
      }
    }
    var f := RemoveChar(l, ' ');
    IsSubseqChars(f, l);
    forall k | 0 <= k < |f|
      ensures f[k] != '/'
    {
      assert f[k] in l;
    }
  }

  /** The combined PDF name with the value sanitised the way the folder name
      already is, so it is always a plain file inside the output folder. */
  function CombinedFileName(field: string, value: string): (r: string)
    ensures SlashFree(field) ==> SlashFree(r)
    ensures |r| == |field| - Count(LowerStr(field), ' ') + |value| + 5 && r[|r| - 4..] == ".pdf"
    ensures r[..|field| - Count(LowerStr(field), ' ')] == RemoveChar(LowerStr(field), ' ')
    ensures r[|field| - Count(LowerStr(field), ' ')] == '-'
    ensures r[|r| - 4 - |value|..|r| - 4] == ReplaceChar(value, '/', '-')
    ensures SlashFree(value) ==> r == CombinedFileNameAsWritten(field, value)
  {
    var v := ReplaceChar(value, '/', '-');
    SanitisedValue(value);
    assert SlashFree(field) ==> SlashFree(CombinedFileNameAsWritten(field, v)) by {
      if SlashFree(field) {
        CombinedNameSlashFree(field, v);
      }
    }
    CombinedFileNameAsWritten(field, v)
  }

  /** Replacing slashes by dashes leaves no slash, and changes nothing in a
      slash-free value. */
  lemma SanitisedValue(value: string)
    ensures SlashFree(ReplaceChar(value, '/', '-'))
    ensures SlashFree(value) ==> ReplaceChar(value, '/', '-') == value
  {
  }

  /** The combined name of a slash-free field and value has no slash. */
  lemma CombinedNameSlashFree(field: string, value: string)
    requires SlashFree(field) && SlashFree(value)
    ensures SlashFree(CombinedFileNameAsWritten(field, value))
  {
    var f := RemoveChar(LowerStr(field), ' ');
    FieldPartSlashFree(field);
    SlashFreeAppend(f, "-");
    SlashFreeAppend(f + "-", value);
    SlashFreeAppend(f + "-" + value, ".pdf");
  }

  /** The console tool's sanitised value: slashes become dashes, spaces
      become underscores. */
  function SafeValue(value: string): (r: string)
    ensures |r| == |value|
    ensures forall k :: 0 <= k < |value| ==>
      r[k] == (if value[k] == '/' then '-' else if value[k] == ' ' then '_' else value[k])
  {
    ReplaceChar(ReplaceChar(value, '/', '-'), ' ', '_')
  }

  /** A sanitised value contains no slash and no space, and sanitising twice
      changes nothing. */
  lemma SafeValueClean(value: string)
    ensures SlashFree(SafeValue(value)) && ' ' !in SafeValue(value)
    ensures SafeValue(SafeValue(value)) == SafeValue(value)
  {
    var r := SafeValue(value);
    assert forall k :: 0 <= k < |r| ==> r[k] != ' ';
  }

  /** The console tool's output file name exactly as written: the field's
      spaces become underscores but its slashes are kept. */
  function OutputFileNameAsWritten(field: string, value: string): (r: string)
    ensures |r| == 11 + |field| + |value| + 4
    ensures r[..10] == "Extracted_" && r[|r| - 4..] == ".pdf"
    ensures forall k :: 0 <= k < |field| ==> r[10 + k] == (if field[k] == ' ' then '_' else field[k])
    ensures r[10 + |field|] == '_' && r[11 + |field|..|r| - 4] == SafeValue(value)
  {
    "Extracted_" + ReplaceChar(field, ' ', '_') + "_" + SafeValue(value) + ".pdf"
  }

  /** As written, the output name has a slash exactly when the field has one;
      detected labels may contain slashes, so such a name points into a
      folder that does not exist. */
  lemma OutputKeepsSlash(field: string, value: string)
    ensures SlashFree(OutputFileNameAsWritten(field, value)) <==> SlashFree(field)
  {
    var r := OutputFileNameAsWritten(field, value);
    SafeValueClean(value);
    if !SlashFree(field) {
      var k :| 0 <= k < |field| && field[k] == '/';
      assert r[10 + k] == '/';
    }
    if SlashFree(field) {
      forall k | 0 <= k < |r|
        ensures r[k] != '/'
      {
        if 11 + |field| <= k < |r| - 4 {
          assert r[k] == SafeValue(value)[k - 11 - |field|];
        }
      }
    }
  }

  /** The label "S/N" with value "7" gives "Extracted_S/N_7.pdf". */
  lemma OutputSlashExample()
    ensures OutputFileNameAsWritten("S/N", "7") == "Extracted_S/N_7.pdf"
    ensures !SlashFree(OutputFileNameAsWritten("S/N", "7"))
  {
    OutputKeepsSlash("S/N", "7");
  }

  /** The output name with the field sanitised like the value. */
  function OutputFileName(field: string, value: string): (r: string)
    ensures SlashFree(r)
    ensures |r| == 15 + |field| + |value|
    ensures r[..10] == "Extracted_" && r[|r| - 4..] == ".pdf"
    ensures r[10..10 + |field|] == SafeValue(field)
    ensures r[10 + |field|] == '_' && r[11 + |field|..|r| - 4] == SafeValue(value)
    ensures SlashFree(field) ==> r == OutputFileNameAsWritten(field, value)
  {
    OutputNameSlashFree(field, value);
    SafeNameParts(field, value);
    assert SlashFree(field) ==> SafeName(field, value) == OutputFileNameAsWritten(field, value) by {
      if SlashFree(field) {
        SlashFreeUnchanged(field);
      }
    }
    SafeName(field, value)
  }

  /** Both parts sanitised. */
  function SafeName(field: string, value: string): string {
    "Extracted_" + SafeValue(field) + "_" + SafeValue(value) + ".pdf"
  }

  /** Where the parts of the sanitised name sit. */
  lemma SafeNameParts(field: string, value: string)
    ensures var r := SafeName(field, value);
      |r| == 15 + |field| + |value|
      && r[..10] == "Extracted_" && r[|r| - 4..] == ".pdf"
      && r[10..10 + |field|] == SafeValue(field)
      && r[10 + |field|] == '_' && r[11 + |field|..|r| - 4] == SafeValue(value)
  {
    var f, v := SafeValue(field), SafeValue(value);
    var r := SafeName(field, value);
    assert r == "Extracted_" + f + "_" + v + ".pdf";
    assert r[10..10 + |field|] == f;
    assert r[11 + |field|..|r| - 4] == v;
  }

  lemma OutputNameSlashFree(field: string, value: string)
    ensures SlashFree(SafeName(field, value))
  {
    SafeValueClean(field);
    SafeValueClean(value);
    var f, v := SafeValue(field), SafeValue(value);
    SlashFreeAppend("Extracted_", f);
    SlashFreeAppend("Extracted_" + f, "_");
    SlashFreeAppend("Extracted_" + f + "_", v);
    SlashFreeAppend("Extracted_" + f + "_" + v, ".pdf");
  }

  /** Without slashes, sanitising only replaces spaces. */
  lemma SlashFreeUnchanged(s: string)
    requires SlashFree(s)
    ensures SafeValue(s) == ReplaceChar(s, ' ', '_')
  {
    assert ReplaceChar(s, '/', '-') == s;
  }

  /** Joining two slash-free strings brings in no slash. */
  lemma SlashFreeAppend(a: string, b: string)
    requires SlashFree(a) && SlashFree(b)
    ensures SlashFree(a + b)
  {
    forall k | 0 <= k < |a + b|
      ensures (a + b)[k] != '/'
    {
      if k >= |a| {
        assert (a + b)[k] == b[k - |a|];
      }
    }
  }
}

=== FILE: regex.dfy ===
/** The part of Python's `re` module that both tools rely on: patterns made of
    one-character classes (a literal, a bracket expression, `\s`, `.` or
    `[^\n]`), each with a greedy quantifier (`x`, `x?`, `x*`, `x+`), an
    optional IGNORECASE flag, `re.search` (leftmost start position, first
    match in backtracking order) and `re.findall` (successive
    non-overlapping matches).

    `Runs` is the backtracking matcher: it lists every way the pattern can
    match from one position, in the order Python's engine tries them.
    `IsRun` is the declarative meaning of a pattern, and `RunsExact` proves
    that the matcher finds exactly the runs the declarative meaning allows. */
module Regex {
  import opened Text

  /** A one-character matcher. */
  datatype Class =
    | Lit(c: char)                    // an ordinary or escaped character
    | Ranges(rs: seq<(char, char)>)   // a bracket expression such as [A-Z0-9\-/]
    | Space                           // \s
    | NotNewline                      // . (without DOTALL) and [^\n]

  /** All quantifiers are greedy. */
  datatype Quant = One | Opt | Star | Plus

  datatype Piece = Piece(cls: Class, q: Quant)

  datatype Pattern = Pattern(pieces: seq<Piece>, ignoreCase: bool)

  /** A match: where it starts and, for each piece, where that piece stopped. */
  datatype Match = Match(start: nat, ends: seq<nat>)

  /** `c` lies in one of the inclusive ranges of a bracket expression. */
  predicate InRanges(rs: seq<(char, char)>, c: char) {
    rs != [] && (rs[0].0 <= c <= rs[0].1 || InRanges(rs[1..], c))
  }

  predicate RawIn(cls: Class, c: char) {
    match cls
    case Lit(x) => c == x
    case Ranges(rs) => InRanges(rs, c)
    case Space => IsSpace(c)
    case NotNewline => c != '\n'
  }

  /** Under IGNORECASE a character also matches when its other-case form does. */
  predicate InClass(cls: Class, ic: bool, c: char) {
    RawIn(cls, c) || (ic && (RawIn(cls, Lower(c)) || RawIn(cls, Upper(c))))
  }

  /** An IGNORECASE literal matches exactly the characters equal to it up to case. */
  lemma LitIgnoreCase(x: char, c: char)
    ensures InClass(Lit(x), true, c) <==> Lower(c) == Lower(x)
  {
  }

  predicate QuantAllows(q: Quant, n: nat) {
    match q
    case One => n == 1
    case Opt => n <= 1
    case Star => true
    case Plus => n >= 1
  }

  /** Length of the longest run of class characters starting at `i`. */
  function RunLen(cls: Class, ic: bool, s: string, i: nat): (n: nat)
    requires i <= |s|
    ensures i + n <= |s|
    decreases |s| - i
  {
    if i < |s| && InClass(cls, ic, s[i]) then 1 + RunLen(cls, ic, s, i + 1) else 0
  }

  /** The run is made of class characters and cannot be extended. */
  lemma {:induction false} RunLenSpec(cls: Class, ic: bool, s: string, i: nat)
    requires i <= |s|
    ensures forall t {:trigger InClass(cls, ic, s[t])} :: i <= t < i + RunLen(cls, ic, s, i) ==> InClass(cls, ic, s[t])
    ensures i + RunLen(cls, ic, s, i) == |s| || !InClass(cls, ic, s[i + RunLen(cls, ic, s, i)])
    decreases |s| - i
  {
    if i < |s| && InClass(cls, ic, s[i]) {
      RunLenSpec(cls, ic, s, i + 1);
    }
  }

  // ---------------------------------------------------------------------
  // Declarative meaning

  /** Piece `p` may consume exactly `s[a..b]`. */
  ghost predicate SpanOk(p: Piece, ic: bool, s: string, a: nat, b: nat) {
    a <= b <= |s| && QuantAllows(p.q, b - a)
    && forall t {:trigger InClass(p.cls, ic, s[t])} :: a <= t < b ==> InClass(p.cls, ic, s[t])
  }

  /** `r` lists where each piece of `ps` stops when the pieces consume,
      one after the other, the text from position `i` on. */
  ghost predicate IsRun(ps: seq<Piece>, ic: bool, s: string, i: nat, r: seq<nat>)
    decreases |ps|
  {
    |r| == |ps|
    && (ps != [] ==> SpanOk(ps[0], ic, s, i, r[0]) && IsRun(ps[1..], ic, s, r[0], r[1..]))
  }

  /** Where piece `k` of a run from `i` starts. */
  function PieceStart(i: nat, r: seq<nat>, k: nat): nat
    requires k <= |r|
  {
    if k == 0 then i else r[k - 1]
  }

  /** Where a run from `i` ends. */
  function EndOf(i: nat, r: seq<nat>): nat {
    if r == [] then i else r[|r| - 1]
  }

  /** A run is the same as every piece consuming its own slice. */
  lemma {:induction false} IsRunPieces(ps: seq<Piece>, ic: bool, s: string, i: nat, r: seq<nat>)
    ensures IsRun(ps, ic, s, i, r) <==>
      |r| == |ps| && forall k :: 0 <= k < |ps| ==> SpanOk(ps[k], ic, s, PieceStart(i, r, k), r[k])
    decreases |ps|
  {
    if ps != [] && |r| == |ps| {
      IsRunPieces(ps[1..], ic, s, r[0], r[1..]);
      forall k | 1 <= k < |ps|
        ensures PieceStart(i, r, k) == PieceStart(r[0], r[1..], k - 1)
      {
      }
      if forall k :: 0 <= k < |ps| ==> SpanOk(ps[k], ic, s, PieceStart(i, r, k), r[k]) {
        forall k | 0 <= k < |ps[1..]|
          ensures SpanOk(ps[1..][k], ic, s, PieceStart(r[0], r[1..], k), r[1..][k])
        {
          assert SpanOk(ps[k + 1], ic, s, PieceStart(i, r, k + 1), r[k + 1]);
        }
      }
      if IsRun(ps, ic, s, i, r) {
        forall k | 0 <= k < |ps|
          ensures SpanOk(ps[k], ic, s, PieceStart(i, r, k), r[k])
        {
          if k > 0 {
            assert SpanOk(ps[1..][k - 1], ic, s, PieceStart(r[0], r[1..], k - 1), r[1..][k - 1]);
          }
        }
      }
    }
  }

  /** Positions inside a run never decrease and stay inside the text. */
  lemma {:induction false} RunBounds(ps: seq<Piece>, ic: bool, s: string, i: nat, r: seq<nat>)
    requires i <= |s|
    requires IsRun(ps, ic, s, i, r)
    ensures i <= EndOf(i, r) <= |s|
    decreases |ps|
  {
    if ps != [] {
      RunBounds(ps[1..], ic, s, r[0], r[1..]);
      assert EndOf(r[0], r[1..]) == EndOf(i, r);
    }
  }

  /** Pieces that cannot match the empty string. */
  predicate Mandatory(p: Piece) {
    p.q == One || p.q == Plus
  }

  /** Patterns with a piece that must consume a character; a match of such a
      pattern is never empty. */
  predicate Consuming(ps: seq<Piece>) {
    exists k :: 0 <= k < |ps| && Mandatory(ps[k])
  }

  lemma {:induction false} RunAdvances(ps: seq<Piece>, ic: bool, s: string, i: nat, r: seq<nat>)
    requires i <= |s|
    requires IsRun(ps, ic, s, i, r)
    requires Consuming(ps)
    ensures i < EndOf(i, r)
    decreases |ps|
  {
    RunBounds(ps[1..], ic, s, r[0], r[1..]);
    assert EndOf(r[0], r[1..]) == EndOf(i, r);
    if !Mandatory(ps[0]) {
      var k :| 0 <= k < |ps| && Mandatory(ps[k]);
      assert Mandatory(ps[1..][k - 1]);
      RunAdvances(ps[1..], ic, s, r[0], r[1..]);
    }
  }

  // ---------------------------------------------------------------------
  // Backtracking matcher

  /** Every run of `ps` from position `i`, in the order the backtracking
      engine tries them: a greedy quantifier first takes as many characters
      as it can and then gives them back one at a time; `?` first tries to
      take its character. */
  function Runs(ps: seq<Piece>, ic: bool, s: string, i: nat): seq<seq<nat>>
    requires i <= |s|
    decreases |ps|, 2, 0
  {
    if ps == [] then [[]]
    else
      var n := RunLen(ps[0].cls, ic, s, i);
      match ps[0].q
      case One => if n >= 1 then Continue(ps, ic, s, i + 1) else []
      case Opt => (if n >= 1 then Continue(ps, ic, s, i + 1) else []) + Continue(ps, ic, s, i)
      case Star => Greedy(ps, ic, s, i, n, 0)
      case Plus => Greedy(ps, ic, s, i, n, 1)
  }

  /** The first piece stops at `e`; the rest of the pattern continues there. */
  function Continue(ps: seq<Piece>, ic: bool, s: string, e: nat): seq<seq<nat>>
    requires ps != [] && e <= |s|
    decreases |ps|, 0, 0
  {
    Prepend(e, Runs(ps[1..], ic, s, e))
  }

  /** The first piece takes `k`, then `k - 1`, ... down to `lo` characters. */
  function Greedy(ps: seq<Piece>, ic: bool, s: string, i: nat, k: int, lo: nat): seq<seq<nat>>
    requires ps != [] && -1 <= k && i + k <= |s|
    decreases |ps|, 1, k + 1
  {
    if k < lo then [] else Continue(ps, ic, s, i + k) + Greedy(ps, ic, s, i, k - 1, lo)
  }

  function Prepend(x: nat, rs: seq<seq<nat>>): (r: seq<seq<nat>>)
    ensures |r| == |rs|
    ensures forall j :: 0 <= j < |rs| ==> r[j] == [x] + rs[j]
  {
    seq(|rs|, j requires 0 <= j < |rs| => [x] + rs[j])
  }

  lemma PrependMembers(x: nat, rs: seq<seq<nat>>, r: seq<nat>)
    ensures r in Prepend(x, rs) <==> |r| > 0 && r[0] == x && r[1..] in rs
  {
    if |r| > 0 && r[0] == x && r[1..] in rs {
      var j :| 0 <= j < |rs| && rs[j] == r[1..];
      assert Prepend(x, rs)[j] == r;
    }
  }

  lemma {:induction false} GreedyMembers(ps: seq<Piece>, ic: bool, s: string, i: nat, k: int, lo: nat, r: seq<nat>)
    requires ps != [] && -1 <= k && i + k <= |s|
    ensures r in Greedy(ps, ic, s, i, k, lo) <==>
      |r| > 0 && i + lo <= r[0] <= i + k && r[1..] in Runs(ps[1..], ic, s, r[0])
    decreases k + 1
  {
    if k >= lo {
      PrependMembers(i + k, Runs(ps[1..], ic, s, i + k), r);
      GreedyMembers(ps, ic, s, i, k - 1, lo, r);
    }
  }

  /** Soundness and completeness of the backtracking matcher with respect to
      the declarative meaning. */
  lemma {:induction false} RunsExact(ps: seq<Piece>, ic: bool, s: string, i: nat)
    requires i <= |s|
    ensures forall r :: r in Runs(ps, ic, s, i) <==> IsRun(ps, ic, s, i, r)
    decreases |ps|
  {
    if ps != [] {
      forall e | i <= e <= |s| {
        RunsExact(ps[1..], ic, s, e);
      }
      var n := RunLen(ps[0].cls, ic, s, i);
      RunLenSpec(ps[0].cls, ic, s, i);
      forall r
        ensures r in Runs(ps, ic, s, i) <==> IsRun(ps, ic, s, i, r)
      {
        match ps[0].q
        case One =>
          if n >= 1 {
            PrependMembers(i + 1, Runs(ps[1..], ic, s, i + 1), r);
          }
        case Opt =>
          PrependMembers(i, Runs(ps[1..], ic, s, i), r);
          if n >= 1 {
            PrependMembers(i + 1, Runs(ps[1..], ic, s, i + 1), r);
          }
        case Star =>
          GreedyMembers(ps, ic, s, i, n, 0, r);
        case Plus =>
          GreedyMembers(ps, ic, s, i, n, 1, r);
      }
    }
  }

  // ---------------------------------------------------------------------
  // re.search and re.findall

  /** Some way of matching the pattern starts at `q`. */
  ghost predicate Matchable(p: Pattern, s: string, q: nat) {
    exists r :: IsRun(p.pieces, p.ignoreCase, s, q, r)
  }

  /** `re.search(pattern, s[from:])`-style search: the leftmost start position
      at which the pattern matches, with the first run the backtracking
      engine finds there. */
  function Search(p: Pattern, s: string, from: nat): (m: Option<Match>)
    requires from <= |s|
    ensures m.Some? ==>
      from <= m.value.start <= |s| && IsRun(p.pieces, p.ignoreCase, s, m.value.start, m.value.ends)
    ensures m.Some? ==>
      Runs(p.pieces, p.ignoreCase, s, m.value.start) != []
      && m.value.ends == Runs(p.pieces, p.ignoreCase, s, m.value.start)[0]
    ensures m.Some? ==> forall q :: from <= q < m.value.start ==> !Matchable(p, s, q)
    ensures m.None? ==> forall q :: from <= q <= |s| ==> !Matchable(p, s, q)
    decreases |s| - from
  {
    var rs := Runs(p.pieces, p.ignoreCase, s, from);
    RunsExact(p.pieces, p.ignoreCase, s, from);
    if rs != [] then
      assert rs[0] in rs;
      Some(Match(from, rs[0]))
    else if from == |s| then None
    else Search(p, s, from + 1)
  }

  /** Where a match ends. */
  function MatchEnd(m: Match): nat {
    EndOf(m.start, m.ends)
  }

  /** No match of `p` starts in a stretch `findall` stepped over: before
      the first match, between two consecutive matches, or after the last. */
  ghost predicate NoneSkipped(p: Pattern, s: string, from: nat, ms: seq<Match>) {
    (forall q :: from <= q <= |s| && (ms == [] || q < ms[0].start) ==> !Matchable(p, s, q))
    && (forall j, q :: 0 <= j < |ms| - 1 && MatchEnd(ms[j]) <= q < ms[j + 1].start ==> !Matchable(p, s, q))
    && (ms != [] ==> forall q :: MatchEnd(ms[|ms| - 1]) <= q <= |s| ==> !Matchable(p, s, q))
  }

  /** `pattern.findall(s)` from position `from`: each match takes the
      engine's first run at its start, and after each match the next search
      starts where that match ended. */
  function FindAll(p: Pattern, s: string, from: nat): (ms: seq<Match>)
    requires from <= |s|
    requires Consuming(p.pieces)
    ensures forall j :: 0 <= j < |ms| ==>
      from <= ms[j].start < MatchEnd(ms[j]) <= |s|
      && IsRun(p.pieces, p.ignoreCase, s, ms[j].start, ms[j].ends)
    ensures forall j, j' :: 0 <= j < j' < |ms| ==> MatchEnd(ms[j]) <= ms[j'].start
    ensures ms == [] <==> forall q :: from <= q <= |s| ==> !Matchable(p, s, q)
    ensures forall j :: 0 <= j < |ms| ==>
      Runs(p.pieces, p.ignoreCase, s, ms[j].start) != []
      && ms[j].ends == Runs(p.pieces, p.ignoreCase, s, ms[j].start)[0]
    decreases |s| - from
  {
    var found := Search(p, s, from);
    if found.None? then []
    else
      var m := found.value;
      RunAdvances(p.pieces, p.ignoreCase, s, m.start, m.ends);
      RunBounds(p.pieces, p.ignoreCase, s, m.start, m.ends);
      assert Matchable(p, s, m.start);
      var rest := FindAll(p, s, MatchEnd(m));
      FirstRunsCons(p, s, m, rest);
      [m] + rest
  }

  /** Every match of `ms` takes the engine's first run at its start. */
  predicate FirstRuns(p: Pattern, s: string, ms: seq<Match>) {
    forall j :: 0 <= j < |ms| ==>
      ms[j].start <= |s| && Runs(p.pieces, p.ignoreCase, s, ms[j].start) != []
      && ms[j].ends == Runs(p.pieces, p.ignoreCase, s, ms[j].start)[0]
  }

  lemma FirstRunsCons(p: Pattern, s: string, m: Match, rest: seq<Match>)
    requires m.start <= |s| && Runs(p.pieces, p.ignoreCase, s, m.start) != []
    requires m.ends == Runs(p.pieces, p.ignoreCase, s, m.start)[0]
    requires FirstRuns(p, s, rest)
    ensures FirstRuns(p, s, [m] + rest)
  {
    var ms := [m] + rest;
    forall j | 0 <= j < |ms|
      ensures ms[j].start <= |s| && Runs(p.pieces, p.ignoreCase, s, ms[j].start) != []
        && ms[j].ends == Runs(p.pieces, p.ignoreCase, s, ms[j].start)[0]
    {
      if j > 0 {
        assert ms[j] == rest[j - 1];
      }
    }
  }

  /** A match preceded by a stretch with no match, followed by a list that
      skips nothing, skips nothing. */
  lemma NoneSkippedCons(p: Pattern, s: string, from: nat, m: Match, rest: seq<Match>)
    requires from <= m.start && MatchEnd(m) <= |s|
    requires forall q :: from <= q < m.start ==> !Matchable(p, s, q)
    requires NoneSkipped(p, s, MatchEnd(m), rest)
    requires forall j :: 0 <= j < |rest| ==> rest[j].start <= |s|
    ensures NoneSkipped(p, s, from, [m] + rest)
  {
    var r := [m] + rest;
    assert forall j :: 1 <= j < |r| ==> r[j] == rest[j - 1];
    forall j, q | 0 <= j < |r| - 1 && MatchEnd(r[j]) <= q < r[j + 1].start
      ensures !Matchable(p, s, q)
    {
      if j > 0 {
        assert r[j] == rest[j - 1] && r[j + 1] == rest[j];
      }
    }
    if rest != [] {
      assert r[|r| - 1] == rest[|rest| - 1];
    }
  }

  /** `findall` misses no match: none starts before its first match,
      between two of its matches, or after its last. */
  lemma {:induction false} FindAllComplete(p: Pattern, s: string, from: nat)
    requires from <= |s| && Consuming(p.pieces)
    ensures NoneSkipped(p, s, from, FindAll(p, s, from))
    decreases |s| - from
  {
    FindAllStep(p, s, from);
    var found := Search(p, s, from);
    if found.Some? {
      var m := found.value;
      RunAdvances(p.pieces, p.ignoreCase, s, m.start, m.ends);
      FindAllComplete(p, s, MatchEnd(m));
      NoneSkippedCons(p, s, from, m, FindAll(p, s, MatchEnd(m)));
    }
  }

  /** The text consumed by piece `g` of a match. */
  function Group(s: string, m: Match, g: nat): string
    requires g < |m.ends|
    requires PieceStart(m.start, m.ends, g) <= m.ends[g] <= |s|
  {
    s[PieceStart(m.start, m.ends, g)..m.ends[g]]
  }

  // ---------------------------------------------------------------------
  // Escaped literals (re.escape)

  /** `re.escape(w)`: every character of `w` becomes a literal piece. */
  function Lits(w: string): (ps: seq<Piece>)
    ensures |ps| == |w|
    ensures forall k :: 0 <= k < |w| ==> ps[k] == Piece(Lit(w[k]), One)
  {
    seq(|w|, k requires 0 <= k < |w| => Piece(Lit(w[k]), One))
  }

  predicate LitsAt(ic: bool, s: string, i: nat, w: string) {
    i + |w| <= |s| && forall k :: 0 <= k < |w| ==> InClass(Lit(w[k]), ic, s[i + k])
  }

  /** Under IGNORECASE an escaped literal string matches exactly where the
      text holds it up to case. */
  lemma LitsAtIgnoreCase(s: string, i: nat, w: string)
    ensures LitsAt(true, s, i, w) <==> CiAt(s, i, w)
  {
    forall k | 0 <= k < |w| && i + k < |s|
      ensures InClass(Lit(w[k]), true, s[i + k]) <==> Lower(s[i + k]) == Lower(w[k])
    {
      LitIgnoreCase(w[k], s[i + k]);
    }
  }

  function Steps(i: nat, n: nat): (r: seq<nat>)
    ensures |r| == n
    ensures forall k :: 0 <= k < n ==> r[k] == i + k + 1
  {
    seq(n, k requires 0 <= k < n => i + k + 1)
  }

  /** An escaped literal string has exactly one run: one character per piece. */
  lemma {:induction false} IsRunLits(w: string, ic: bool, s: string, i: nat, r: seq<nat>)
    requires i <= |s|
    ensures IsRun(Lits(w), ic, s, i, r) <==> LitsAt(ic, s, i, w) && r == Steps(i, |w|)
    decreases |w|
  {
    if w != [] {
      assert Lits(w)[1..] == Lits(w[1..]);
      if |r| > 0 && i < |s| {
        IsRunLits(w[1..], ic, s, i + 1, r[1..]);
        assert Steps(i, |w|)[1..] == Steps(i + 1, |w| - 1);
        if LitsAt(ic, s, i, w) && r == Steps(i, |w|) {
          assert LitsAt(ic, s, i + 1, w[1..]);
        }
        if IsRun(Lits(w), ic, s, i, r) {
          assert r[0] == i + 1;
          assert LitsAt(ic, s, i, w) by {
            forall k | 0 <= k < |w|
              ensures InClass(Lit(w[k]), ic, s[i + k])
            {
              if k > 0 {
                assert InClass(Lit(w[1..][k - 1]), ic, s[i + 1 + (k - 1)]);
              }
            }
          }
          assert r == [r[0]] + r[1..];
        }
      }
    }
  }

  /** The runs of `x + y` are the runs of `x` followed by runs of `y` from
      where `x` stopped. */
  lemma {:induction false} IsRunAppend(x: seq<Piece>, y: seq<Piece>, ic: bool, s: string, i: nat, r: seq<nat>)
    ensures IsRun(x + y, ic, s, i, r) <==>
      |r| >= |x| && IsRun(x, ic, s, i, r[..|x|]) && IsRun(y, ic, s, EndOf(i, r[..|x|]), r[|x|..])
    decreases |x|
  {
    if x == [] {
      assert x + y == y;
      assert r[..0] == [] && r[0..] == r;
    } else if |r| >= |x| {
      assert (x + y)[1..] == x[1..] + y;
      assert (x + y)[0] == x[0];
      IsRunAppend(x[1..], y, ic, s, r[0], r[1..]);
      assert r[..|x|][1..] == r[1..][..|x| - 1];
      assert r[1..][|x| - 1..] == r[|x|..];
      assert EndOf(r[0], r[1..][..|x| - 1]) == EndOf(i, r[..|x|]);
    }
  }

  // ---------------------------------------------------------------------
  // Reasoning about the order of runs

  /** `L` is `M` with an `n`-element prefix in front of each run. */
  ghost predicate DropsTo(L: seq<seq<nat>>, n: nat, M: seq<seq<nat>>) {
    |L| == |M| && forall j :: 0 <= j < |L| ==> |L[j]| == n + |M[j]| && L[j][n..] == M[j]
  }

  lemma DropsToTrans(L: seq<seq<nat>>, n: nat, M: seq<seq<nat>>, m: nat, K: seq<seq<nat>>)
    requires DropsTo(L, n, M) && DropsTo(M, m, K)
    ensures DropsTo(L, n + m, K)
  {
    forall j | 0 <= j < |L|
      ensures L[j][n + m..] == K[j]
    {
      assert L[j][n + m..] == L[j][n..][m..];
    }
  }

  lemma PrependDrops(x: nat, M: seq<seq<nat>>)
    ensures DropsTo(Prepend(x, M), 1, M)
  {
    forall j | 0 <= j < |M|
      ensures Prepend(x, M)[j][1..] == M[j]
    {
      assert ([x] + M[j])[1..] == M[j];
    }
  }

  /** A mandatory piece that cannot take the next character fails at once. */
  lemma MandatoryBlocked(ps: seq<Piece>, ic: bool, s: string, i: nat)
    requires ps != [] && Mandatory(ps[0]) && i <= |s|
    requires i == |s| || !InClass(ps[0].cls, ic, s[i])
    ensures Runs(ps, ic, s, i) == []
  {
  }

  /** When giving characters back cannot help the rest of the pattern, the
      greedy choice is the only one that can succeed. */
  lemma {:induction false} GreedyOnlyLongest(ps: seq<Piece>, ic: bool, s: string, i: nat, k: int, lo: nat)
    requires ps != [] && -1 <= k && i + k <= |s|
    requires forall t :: i + lo <= t < i + k ==> Runs(ps[1..], ic, s, t) == []
    ensures Greedy(ps, ic, s, i, k, lo) == if k >= lo then Continue(ps, ic, s, i + k) else []
    decreases k + 1
  {
    if k >= lo {
      GreedyOnlyLongest(ps, ic, s, i, k - 1, lo);
      if k - 1 >= lo {
        assert Runs(ps[1..], ic, s, i + k - 1) == [];
      }
    }
  }

  /** `Continue` as an equation, for use where the solver should not unfold. */
  lemma ContinueIs(ps: seq<Piece>, ic: bool, s: string, e: nat)
    requires ps != [] && e <= |s|
    ensures Continue(ps, ic, s, e) == Prepend(e, Runs(ps[1..], ic, s, e))
  {
  }

  /** An optional piece first tries to take the next character. */
  lemma RunsOpt(ps: seq<Piece>, ic: bool, s: string, i: nat)
    requires ps != [] && ps[0].q == Opt && i <= |s|
    ensures Runs(ps, ic, s, i) ==
      (if RunLen(ps[0].cls, ic, s, i) >= 1 then Continue(ps, ic, s, i + 1) else []) + Continue(ps, ic, s, i)
  {
  }

  /** A starred or plussed piece starts from its longest run. */
  lemma RunsGreedy(ps: seq<Piece>, ic: bool, s: string, i: nat)
    requires ps != [] && (ps[0].q == Star || ps[0].q == Plus) && i <= |s|
    ensures Runs(ps, ic, s, i) ==
      Greedy(ps, ic, s, i, RunLen(ps[0].cls, ic, s, i), if ps[0].q == Plus then 1 else 0)
  {
  }

  /** A `+` piece at the end of a pattern takes its longest run first. */
  lemma LastPlus(p: Piece, ic: bool, s: string, i: nat)
    requires p.q == Plus && i <= |s|
    ensures Runs([p], ic, s, i) != [] <==> RunLen(p.cls, ic, s, i) > 0
    ensures RunLen(p.cls, ic, s, i) > 0 ==> Runs([p], ic, s, i)[0] == [i + RunLen(p.cls, ic, s, i)]
  {
    var ps := [p];
    var m := RunLen(p.cls, ic, s, i);
    assert ps[1..] == [];
    RunsGreedy(ps, ic, s, i);
    if m > 0 {
      assert Greedy(ps, ic, s, i, m, 1) == Continue(ps, ic, s, i + m) + Greedy(ps, ic, s, i, m - 1, 1);
      assert Runs(ps[1..], ic, s, i + m) == [[]];
      assert Continue(ps, ic, s, i + m) == Prepend(i + m, [[]]);
    }
  }

  /** A whitespace gap `\s*` or `\s+` followed by a piece that never takes
      whitespace takes the whole whitespace run. */
  lemma {:induction false} GapStep(ps: seq<Piece>, ic: bool, s: string, i: nat)
    requires |ps| >= 2 && ps[0].cls == Space && (ps[0].q == Star || ps[0].q == Plus) && i <= |s|
    requires Mandatory(ps[1]) && forall c {:trigger InClass(ps[1].cls, ic, c)} :: IsSpace(c) ==> !InClass(ps[1].cls, ic, c)
    ensures var n := RunLen(Space, ic, s, i);
      var lo := if ps[0].q == Plus then 1 else 0;
      (n < lo ==> Runs(ps, ic, s, i) == [])
      && (n >= lo ==> DropsTo(Runs(ps, ic, s, i), 1, Runs(ps[1..], ic, s, i + n)))
  {
    var n := RunLen(Space, ic, s, i);
    var lo: nat := if ps[0].q == Plus then 1 else 0;
    RunLenSpec(Space, ic, s, i);
    forall u | i + lo <= u < i + n
      ensures Runs(ps[1..], ic, s, u) == []
    {
      assert InClass(Space, ic, s[u]);
      SpaceNotSpace(s[u], ic);
      MandatoryBlocked(ps[1..], ic, s, u);
    }
    RunsGreedy(ps, ic, s, i);
    GreedyOnlyLongest(ps, ic, s, i, n, lo);
    assert Runs(ps, ic, s, i) == Greedy(ps, ic, s, i, n, lo);
    if n >= lo {
      var M := Runs(ps[1..], ic, s, i + n);
      assert Greedy(ps, ic, s, i, n, lo) == Continue(ps, ic, s, i + n);
      assert Runs(ps, ic, s, i) == Prepend(i + n, M);
      PrependDrops(i + n, M);
    }
  }

  /** An escaped literal followed by a whitespace gap: both only put their
      positions in front of what follows the gap. */
  lemma LitsThenGap(w: string, ps: seq<Piece>, ic: bool, s: string, i: nat)
    requires |ps| >= 2 && ps[0].cls == Space && (ps[0].q == Star || ps[0].q == Plus) && i <= |s|
    requires Mandatory(ps[1]) && forall c {:trigger InClass(ps[1].cls, ic, c)} :: IsSpace(c) ==> !InClass(ps[1].cls, ic, c)
    ensures !LitsAt(ic, s, i, w) ==> Runs(Lits(w) + ps, ic, s, i) == []
    ensures LitsAt(ic, s, i, w) ==>
      var n := RunLen(Space, ic, s, i + |w|);
      var lo := if ps[0].q == Plus then 1 else 0;
      (n < lo ==> Runs(Lits(w) + ps, ic, s, i) == [])
      && (n >= lo ==> DropsTo(Runs(Lits(w) + ps, ic, s, i), |w| + 1, Runs(ps[1..], ic, s, i + |w| + n)))
  {
    LitsPrefix(w, ps, ic, s, i);
    if LitsAt(ic, s, i, w) {
      var e := i + |w|;
      GapStep(ps, ic, s, e);
      var n := RunLen(Space, ic, s, e);
      if n >= (if ps[0].q == Plus then 1 else 0) {
        DropsToTrans(Runs(Lits(w) + ps, ic, s, i), |w|, Runs(ps, ic, s, e), 1, Runs(ps[1..], ic, s, e + n));
      } else {
        assert Runs(ps, ic, s, e) == [];
      }
    }
  }

  /** The whitespace class holds only whitespace, whatever the case flag. */
  lemma SpaceNotSpace(c: char, ic: bool)
    requires InClass(Space, ic, c)
    ensures IsSpace(c)
  {
  }

  /** A literal string is at `i` when its first character is and the rest
      follows. */
  lemma LitsAtStep(ic: bool, s: string, i: nat, w: string)
    requires w != []
    ensures LitsAt(ic, s, i, w) <==>
      i < |s| && InClass(Lit(w[0]), ic, s[i]) && LitsAt(ic, s, i + 1, w[1..])
  {
    if i < |s| && InClass(Lit(w[0]), ic, s[i]) && LitsAt(ic, s, i + 1, w[1..]) {
      forall k | 0 <= k < |w|
        ensures InClass(Lit(w[k]), ic, s[i + k])
      {
        if k > 0 {
          assert InClass(Lit(w[1..][k - 1]), ic, s[i + 1 + (k - 1)]);
        }
      }
    }
    if LitsAt(ic, s, i, w) {
      assert InClass(Lit(w[0]), ic, s[i + 0]);
    }
  }

  /** A piece without quantifier either takes the next character or fails. */
  lemma RunsOne(ps: seq<Piece>, ic: bool, s: string, i: nat)
    requires ps != [] && ps[0].q == One && i <= |s|
    ensures i < |s| && InClass(ps[0].cls, ic, s[i]) ==>
      Runs(ps, ic, s, i) == Prepend(i + 1, Runs(ps[1..], ic, s, i + 1))
    ensures !(i < |s| && InClass(ps[0].cls, ic, s[i])) ==> Runs(ps, ic, s, i) == []
  {
  }

  /** Matching an escaped literal string just puts its positions in front of
      whatever the rest of the pattern does after it. */
  lemma {:induction false} LitsPrefix(w: string, t: seq<Piece>, ic: bool, s: string, i: nat)
    requires i <= |s|
    ensures !LitsAt(ic, s, i, w) ==> Runs(Lits(w) + t, ic, s, i) == []
    ensures LitsAt(ic, s, i, w) ==> DropsTo(Runs(Lits(w) + t, ic, s, i), |w|, Runs(t, ic, s, i + |w|))
    decreases |w|
  {
    var ps := Lits(w) + t;
    if w == [] {
      assert ps == t;
      var M := Runs(t, ic, s, i);
      forall j | 0 <= j < |M|
        ensures M[j][0..] == M[j]
      {
      }
    } else {
      assert ps[0] == Piece(Lit(w[0]), One);
      assert ps[1..] == Lits(w[1..]) + t;
      RunsOne(ps, ic, s, i);
      LitsAtStep(ic, s, i, w);
      if i < |s| && InClass(Lit(w[0]), ic, s[i]) {
        LitsPrefix(w[1..], t, ic, s, i + 1);
        if LitsAt(ic, s, i, w) {
          var M := Runs(ps[1..], ic, s, i + 1);
          PrependDrops(i + 1, M);
          DropsToTrans(Runs(ps, ic, s, i), 1, M, |w| - 1, Runs(t, ic, s, i + |w|));
        }
      }
    }
  }

  /** When the longest run of a greedy piece lets the rest of the pattern
      match, the first run found keeps that longest run. */
  lemma GreedyFirst(ps: seq<Piece>, ic: bool, s: string, i: nat)
    requires ps != [] && (ps[0].q == Star || ps[0].q == Plus) && i <= |s|
    requires RunLen(ps[0].cls, ic, s, i) >= (if ps[0].q == Plus then 1 else 0)
    requires Runs(ps[1..], ic, s, i + RunLen(ps[0].cls, ic, s, i)) != []
    ensures Runs(ps, ic, s, i) != []
    ensures Runs(ps, ic, s, i)[0] ==
      [i + RunLen(ps[0].cls, ic, s, i)] + Runs(ps[1..], ic, s, i + RunLen(ps[0].cls, ic, s, i))[0]
  {
    var n := RunLen(ps[0].cls, ic, s, i);
    var lo: nat := if ps[0].q == Plus then 1 else 0;
    RunsGreedy(ps, ic, s, i);
    assert Greedy(ps, ic, s, i, n, lo) == Continue(ps, ic, s, i + n) + Greedy(ps, ic, s, i, n as int - 1, lo);
    ContinueIs(ps, ic, s, i + n);
  }

  /** The run length is `n` when `n` class characters are followed by a
      character outside the class or by the end of the text. */
  lemma {:induction false} RunLenExact(cls: Class, ic: bool, s: string, i: nat, n: nat)
    requires i + n <= |s|
    requires forall t :: i <= t < i + n ==> InClass(cls, ic, s[t])
    requires i + n == |s| || !InClass(cls, ic, s[i + n])
    ensures RunLen(cls, ic, s, i) == n
    decreases n
  {
    if n > 0 {
      RunLenExact(cls, ic, s, i + 1, n - 1);
    }
  }

  /** Searching from a position where the pattern matches stops there. */
  lemma SearchHere(p: Pattern, s: string, from: nat)
    requires from <= |s| && Runs(p.pieces, p.ignoreCase, s, from) != []
    ensures Search(p, s, from) == Some(Match(from, Runs(p.pieces, p.ignoreCase, s, from)[0]))
  {
  }

  /** Searching from a position where the pattern fails moves on. */
  lemma SearchSkip(p: Pattern, s: string, from: nat)
    requires from < |s| && Runs(p.pieces, p.ignoreCase, s, from) == []
    ensures Search(p, s, from) == Search(p, s, from + 1)
  {
  }

  /** `findall` takes the match `search` finds and continues after it. */
  lemma FindAllStep(p: Pattern, s: string, from: nat)
    requires from <= |s| && Consuming(p.pieces)
    ensures Search(p, s, from).None? ==> FindAll(p, s, from) == []
    ensures Search(p, s, from).Some? ==>
      MatchEnd(Search(p, s, from).value) <= |s|
      && FindAll(p, s, from) == [Search(p, s, from).value] + FindAll(p, s, MatchEnd(Search(p, s, from).value))
  {
    var found := Search(p, s, from);
    if found.Some? {
      RunBounds(p.pieces, p.ignoreCase, s, found.value.start, found.value.ends);
      RunAdvances(p.pieces, p.ignoreCase, s, found.value.start, found.value.ends);
    }
  }

  /** `findall` from a position where the pattern fails is `findall` from the
      next one. */
  lemma FindAllSkip(p: Pattern, s: string, from: nat)
    requires from < |s| && Consuming(p.pieces) && Runs(p.pieces, p.ignoreCase, s, from) == []
    ensures FindAll(p, s, from) == FindAll(p, s, from + 1)
  {
    SearchSkip(p, s, from);
    FindAllStep(p, s, from);
    FindAllStep(p, s, from + 1);
  }
}

=== FILE: report_pages.dfy ===
/** Field discovery on pages printed as `LABEL : value` lines: the detector
    reads back exactly the labels, so `detect_fields` lists them. */
module ReportPages {
  import opened Text
  import opened Regex
  import opened Sorting
  import opened Discovery

  /** One `LABEL : value` line. */
  function Line(key: string, value: string): (l: string)
    ensures |l| == |key| + |value| + 4
  {
    key + " : " + value + "\n"
  }

  /** A page made of such lines. */
  function Render(entries: seq<(string, string)>): string {
    if entries == [] then [] else Line(entries[0].0, entries[0].1) + Render(entries[1..])
  }

  /** A non-empty label, and a value on one line that does not start with
      whitespace. */
  predicate WellFormed(e: (string, string)) {
    IsLabel(e.0) && e.0 != [] && e.1 != [] && !IsSpace(e.1[0]) && '\n' !in e.1
  }

  /** The first run of the detector on a well-formed line takes the label and
      its space, the colon, the space after it and the value. */
  lemma LineRun(s: string, pos: nat, key: string, value: string)
    requires pos + |Line(key, value)| <= |s| && s[pos..pos + |Line(key, value)|] == Line(key, value)
    requires WellFormed((key, value))
    ensures var n, w := |key| + 1, |value|;
      Runs(DetectorPieces, false, s, pos) != []
      && Runs(DetectorPieces, false, s, pos)[0] == [pos + n, pos + n, pos + n + 1, pos + n + 2, pos + n + 2 + w]
      && s[pos + n + 2 + w] == '\n'
  {
    var l := Line(key, value);
    var n, w := |key| + 1, |value|;
    assert forall k :: 0 <= k < |l| ==> s[pos + k] == l[k];
    forall t | pos <= t < pos + n
      ensures IsLabelChar(s[t])
    {
      if t < pos + |key| {
        assert s[t] == key[t - pos];
      } else {
        assert s[t] == l[|key|];
      }
    }
    assert s[pos + n] == l[n];
    assert s[pos + n + 1] == l[n + 1];
    assert s[pos + n + 2] == value[0];
    forall t | pos + n + 2 <= t < pos + n + 2 + w
      ensures s[t] != '\n'
    {
      assert s[t] == value[t - pos - n - 2];
    }
    assert s[pos + n + 2 + w] == l[n + 2 + w];
    DetectorLine(s, pos, n, 1, w);
  }

  /** The detector's match on a well-formed line. */
  function LineMatch(pos: nat, key: string, value: string): Match {
    var n, w := |key| + 1, |value|;
    Match(pos, [pos + n, pos + n, pos + n + 1, pos + n + 2, pos + n + 2 + w])
  }

  /** After matching a well-formed line, `findall` carries on after its line
      break. */
  lemma LineEntries(s: string, pos: nat, key: string, value: string)
    requires pos + |Line(key, value)| <= |s| && s[pos..pos + |Line(key, value)|] == Line(key, value)
    requires WellFormed((key, value))
    ensures EntriesFrom(s, pos) == [LineMatch(pos, key, value)] + EntriesFrom(s, pos + |Line(key, value)|)
  {
    var e := pos + |key| + 3 + |value|;
    LineRun(s, pos, key, value);
    SearchHere(Detector, s, pos);
    DetectorConsuming();
    FindAllStep(Detector, s, pos);
    LabelRanges(s[e]);
    MandatoryBlocked(DetectorPieces, false, s, e);
    FindAllSkip(Detector, s, e);
  }

  /** A line placed at `pos` starts with its key and a space. */
  lemma LinePrefix(s: string, pos: nat, key: string, value: string)
    requires pos + |Line(key, value)| <= |s| && s[pos..pos + |Line(key, value)|] == Line(key, value)
    ensures s[pos..pos + |key| + 1] == key + " "
  {
    var n := |key| + 1;
    assert s[pos..pos + n] == s[pos..pos + |Line(key, value)|][..n];
    assert Line(key, value)[..n] == key + " ";
  }

  /** `s` holds the lines of `es` from `pos` to its end. */
  predicate LinesAt(s: string, pos: nat, es: seq<(string, string)>)
    decreases |es|
  {
    if es == [] then pos == |s|
    else
      var l := Line(es[0].0, es[0].1);
      pos + |l| <= |s| && s[pos..pos + |l|] == l && LinesAt(s, pos + |l|, es[1..])
  }

  /** Match `j` of `ms` starts a label group made of key `j` of `es` and the
      space after it. */
  predicate KeysAt(s: string, ms: seq<Match>, es: seq<(string, string)>) {
    |ms| == |es|
    && forall j :: 0 <= j < |ms| ==>
      |ms[j].ends| > 0 && ms[j].start + |es[j].0| + 1 == ms[j].ends[0] <= |s|
      && s[ms[j].start..ms[j].ends[0]] == es[j].0 + " "
  }

  lemma KeysAtCons(s: string, pos: nat, key: string, m: Match, ms: seq<Match>, r: seq<Match>, es: seq<(string, string)>)
    requires es != [] && es[0].0 == key && KeysAt(s, ms, es[1..]) && r == [m] + ms
    requires |m.ends| > 0 && m.start == pos && m.ends[0] == pos + |key| + 1 <= |s|
    requires s[pos..pos + |key| + 1] == key + " "
    ensures KeysAt(s, r, es)
  {
    forall j | 0 < j < |r|
      ensures |r[j].ends| > 0 && r[j].start + |es[j].0| + 1 == r[j].ends[0] <= |s|
      ensures s[r[j].start..r[j].ends[0]] == es[j].0 + " "
    {
      assert r[j] == ms[j - 1] && es[j] == es[1..][j - 1];
    }
  }

  /** A well-formed line adds its match in front of the matches of what
      follows it. */
  lemma LinesStep(s: string, pos: nat, key: string, value: string, es: seq<(string, string)>)
    requires pos + |Line(key, value)| <= |s| && s[pos..pos + |Line(key, value)|] == Line(key, value)
    requires WellFormed((key, value)) && es != [] && es[0].0 == key
    requires KeysAt(s, EntriesFrom(s, pos + |Line(key, value)|), es[1..])
    ensures KeysAt(s, EntriesFrom(s, pos), es)
  {
    LineEntries(s, pos, key, value);
    LinePrefix(s, pos, key, value);
    var m := LineMatch(pos, key, value);
    KeysAtCons(s, pos, key, m, EntriesFrom(s, pos + |Line(key, value)|), EntriesFrom(s, pos), es);
  }

  /** The detector's matches on a page of well-formed lines, from the start
      of any of its lines: one match per line, whose label group is the
      line's key followed by its space. */
  lemma {:induction false} LinesFound(s: string, pos: nat, es: seq<(string, string)>)
    requires pos <= |s| && LinesAt(s, pos, es)
    requires forall j :: 0 <= j < |es| ==> WellFormed(es[j])
    ensures KeysAt(s, EntriesFrom(s, pos), es)
    decreases |es|
  {
    if es == [] {
      DetectorConsuming();
      MandatoryBlocked(DetectorPieces, false, s, pos);
      assert Search(Detector, s, pos) == None;
      FindAllStep(Detector, s, pos);
    } else {
      assert WellFormed(es[0]);
      LinesFound(s, pos + |Line(es[0].0, es[0].1)|, es[1..]);
      LinesStep(s, pos, es[0].0, es[0].1, es);
    }
  }

  /** A rendered page holds its lines from wherever they start. */
  lemma {:induction false} RenderedLinesAt(s: string, pos: nat, es: seq<(string, string)>)
    requires pos <= |s| && s[pos..] == Render(es)
    ensures LinesAt(s, pos, es)
    decreases |es|
  {
    if es != [] {
      var l := Line(es[0].0, es[0].1);
      assert s[pos..] == l + Render(es[1..]);
      assert s[pos..pos + |l|] == s[pos..][..|l|];
      assert s[pos + |l|..] == s[pos..][|l|..];
      RenderedLinesAt(s, pos + |l|, es[1..]);
    }
  }

  /** The keys of a page's lines, in order. */
  function Keys(es: seq<(string, string)>): (ks: seq<string>)
    ensures |ks| == |es|
  {
    seq(|es|, j requires 0 <= j < |es| => es[j].0)
  }

  /** The label of a match whose label group is a key and its space is the
      key. */
  lemma KeyLabel(text: string, ms: seq<Match>, es: seq<(string, string)>, j: nat)
    requires ms == Entries(text) && KeysAt(text, ms, es)
    requires j < |es| && WellFormed(es[j])
    ensures LabelOf(text, ms[j]) == es[j].0
  {
    assert Group(text, ms[j], 0) == text[ms[j].start..ms[j].ends[0]];
    LabelOfSpaced(text, ms[j], es[j].0);
  }

  /** One match per line of a rendered page, each on the line's key. */
  lemma PageKeysAt(es: seq<(string, string)>)
    requires forall j :: 0 <= j < |es| ==> WellFormed(es[j])
    ensures KeysAt(Render(es), Entries(Render(es)), es)
  {
    var text := Render(es);
    RenderedLinesAt(text, 0, es);
    LinesFound(text, 0, es);
  }

  /** On a page of well-formed lines the detector reads back exactly the
      lines' keys, in page order. */
  lemma PageLabels(es: seq<(string, string)>)
    requires forall j :: 0 <= j < |es| ==> WellFormed(es[j])
    ensures Labels(Render(es)) == Keys(es)
  {
    var text := Render(es);
    PageKeysAt(es);
    var ms := Entries(text);
    forall j | 0 <= j < |es|
      ensures LabelOf(text, ms[j]) == Keys(es)[j]
    {
      KeyLabel(text, ms, es, j);
    }
    LabelsAre(text, Keys(es));
  }

  /** `detect_fields` on a page of well-formed lines lists the distinct keys
      of its lines, ascending. */
  lemma PageFields(es: seq<(string, string)>, x: string)
    requires forall j :: 0 <= j < |es| ==> WellFormed(es[j])
    ensures x in DetectFields([Render(es)]) <==> x in Keys(es)
  {
    OnePageFields(Render(es), x);
    PageLabels(es);
  }

  const ReportEntries: seq<(string, string)> := [("FLANGE NO", "F1"), ("HEAT NO", "H1")]

  lemma ReportWellFormed()
    ensures forall j :: 0 <= j < |ReportEntries| ==> WellFormed(ReportEntries[j])
    ensures Keys(ReportEntries) == ["FLANGE NO", "HEAT NO"]
  {
    var es := ReportEntries;
    assert WellFormed(es[0]);
    assert WellFormed(es[1]);
  }

  lemma ReportText()
    ensures Render(ReportEntries) == "FLANGE NO : F1\nHEAT NO : H1\n"
  {
    var es := ReportEntries;
    assert es[1..][1..] == [];
  }

  /** The page "FLANGE NO : F1\nHEAT NO : H1\n" offers the fields
      "FLANGE NO" and "HEAT NO", in that order. */
  lemma ReportFields()
    ensures DetectFields([Render(ReportEntries)]) == ["FLANGE NO", "HEAT NO"]
  {
    var es := ReportEntries;
    var want := ["FLANGE NO", "HEAT NO"];
    ReportWellFormed();
    forall x
      ensures x in DetectFields([Render(es)]) <==> x in want
    {
      PageFields(es, x);
    }
    assert StrLt(want[0], want[1]);
    AscendingUnique(DetectFields([Render(es)]), want);
  }
}

=== FILE: selection.dfy ===
/** The page-selection loop of the GUI's extraction: for every page, pick the
    direct text or fall back to OCR, keep the page when the searched value
    occurs in it ignoring case, and record the page's fields. Reading the
    PDF, running OCR and writing files are outside the model; each page is
    given as what the text extraction returned and what OCR would return. */
module PageSelection {
  import opened Text
  import opened Fields
  import opened Naming

  /** What the direct text extraction of a page gave: a string, nothing, or
      an exception (caught and treated like nothing). */
  datatype Direct = Extracted(text: string) | NoText | Failed

  /** One page: the direct extraction and the text OCR produces for it. */
  datatype PageInput = PageInput(direct: Direct, ocr: string)

  /** A row of the summary table: the one-based page number and the six
      extracted fields in schema order. */
  datatype Row = Row(page: nat, fields: seq<(string, string)>)

  /** The two files written when at least one page matched. */
  datatype Outputs = Outputs(combined: string, summary: string)

  datatype Extraction = Extraction(
    folder: string,
    rows: seq<Row>,
    added: seq<nat>,
    progress: seq<(nat, nat)>,
    files: Option<Outputs>)

  /** Direct text shorter than this once stripped is replaced by OCR. */
  const MinDirectChars: nat := 20

  const SummaryFileName := "summary.xlsx"

  /** The page needs OCR: there is no direct text, it is empty, or its
      stripped form is shorter than the threshold. The emptiness test adds
      nothing: the empty string strips to the empty string. */
  function NeedsOcr(d: Direct): (b: bool)
    ensures b <==> !d.Extracted? || |Strip(d.text)| < MinDirectChars
  {
    match d
    case Extracted(t) =>
      StripNoSpace([]);
      t == [] || |Strip(t)| < MinDirectChars
    case _ => true
  }

  /** The text the page is judged on. */
  function PageText(p: PageInput): (t: string)
    ensures t == p.ocr || (p.direct.Extracted? && t == p.direct.text && |Strip(t)| >= MinDirectChars)
    ensures p.direct.Extracted? && |Strip(p.direct.text)| >= MinDirectChars ==> t == p.direct.text
    ensures !p.direct.Extracted? ==> t == p.ocr
  {
    if NeedsOcr(p.direct) then p.ocr else p.direct.text
  }

  /** For text without surrounding whitespace the threshold is exact: twenty
      characters are kept, nineteen go to OCR. */
  lemma OcrThreshold(t: string)
    requires |t| > 0 ==> !IsSpace(t[0]) && !IsSpace(t[|t| - 1])
    ensures NeedsOcr(Extracted(t)) <==> |t| < MinDirectChars
  {
    StripNoSpace(t);
  }

  /** `value.lower() in text.lower()`: the value occurs somewhere in the
      text, ignoring ASCII case. */
  function Selects(text: string, value: string): (b: bool)
    ensures b <==> exists i: nat :: CiAt(text, i, value)
  {
    ContainsLowerIff(text, value);
    Contains(LowerStr(text), LowerStr(value))
  }

  /** An empty value selects every page. */
  lemma EmptyValueSelects(text: string, value: string)
    ensures value == [] ==> Selects(text, value)
  {
    if value == [] {
      assert CiAt(text, 0, value);
    }
  }

  /** The text of every page, in page order. */
  function PageTexts(pages: seq<PageInput>): (ts: seq<string>)
    ensures |ts| == |pages|
    ensures forall i :: 0 <= i < |pages| ==> ts[i] == PageText(pages[i])
  {
    seq(|pages|, i requires 0 <= i < |pages| => PageText(pages[i]))
  }

  /** Indices of the texts before `n` that the value selects, in order. */
  function SelectedBefore(texts: seq<string>, value: string, n: nat): (s: seq<nat>)
    requires n <= |texts|
    ensures forall j :: 0 <= j < |s| ==> s[j] < n
  {
    if n == 0 then []
    else SelectedBefore(texts, value, n - 1) + (if Selects(texts[n - 1], value) then [n - 1] else [])
  }

  /** The selected indices are strictly increasing and contain exactly the
      texts that select. */
  lemma {:induction false} SelectedBeforeSpec(texts: seq<string>, value: string, n: nat)
    requires n <= |texts|
    ensures forall j, k :: 0 <= j < k < |SelectedBefore(texts, value, n)| ==>
      SelectedBefore(texts, value, n)[j] < SelectedBefore(texts, value, n)[k]
    ensures forall t :: 0 <= t < n ==>
      (t in SelectedBefore(texts, value, n) <==> Selects(texts[t], value))
  {
    if n > 0 {
      SelectedBeforeSpec(texts, value, n - 1);
      var p := SelectedBefore(texts, value, n - 1);
      var s := SelectedBefore(texts, value, n);
      assert s == p + (if Selects(texts[n - 1], value) then [n - 1] else []);
      forall t | 0 <= t < n
        ensures t in s <==> Selects(texts[t], value)
      {
        if t < n - 1 {
          assert t in s <==> t in p;
        }
      }
    }
  }

  /** The summary row of page index `t`. */
  function RowOf(texts: seq<string>, t: nat): Row
    requires t < |texts|
  {
    Row(t + 1, ExtractFields(texts[t]))
  }

  /** The summary rows of the given page indices, in the same order. */
  function RowsOf(texts: seq<string>, added: seq<nat>): (rows: seq<Row>)
    requires forall j :: 0 <= j < |added| ==> added[j] < |texts|
    ensures |rows| == |added|
    ensures forall j :: 0 <= j < |added| ==> rows[j].page == added[j] + 1 && rows[j].fields == ExtractFields(texts[added[j]])
  {
    seq(|added|, j requires 0 <= j < |added| => RowOf(texts, added[j]))
  }

  /** The loop over the pages: the indices of the pages the value selects and,
      when a progress callback is present, one report `(i + 1, total)` after
      each page. */
  method SelectPages(texts: seq<string>, value: string, report: bool)
    returns (added: seq<nat>, progress: seq<(nat, nat)>)
    ensures forall j :: 0 <= j < |added| ==> added[j] < |texts|
    ensures forall j, k :: 0 <= j < k < |added| ==> added[j] < added[k]
    ensures forall t :: 0 <= t < |texts| ==> (t in added <==> Selects(texts[t], value))
    ensures |progress| == (if report then |texts| else 0)
    ensures forall k :: 0 <= k < |progress| ==> progress[k] == (k + 1, |texts|)
  {
    added := [];
    progress := [];
    var i := 0;
    while i < |texts|
      invariant 0 <= i <= |texts|
      invariant added == SelectedBefore(texts, value, i)
      invariant |progress| == (if report then i else 0)
      invariant forall k :: 0 <= k < |progress| ==> progress[k] == (k + 1, |texts|)
    {
      if Selects(texts[i], value) {
        added := added + [i];
      }
      if report {
        progress := progress + [(i + 1, |texts|)];
      }
      i := i + 1;
    }
    SelectedBeforeSpec(texts, value, |texts|);
  }

  /** The extraction as written: the output folder, the rows of the matching
      pages, the page indices added to the combined PDF, the progress reports
      and, when something matched, the two output file names, the combined
      one keeping any slash of the value. The count returned is the number
      of rows. */
  method ExtractByFieldAsWritten(pages: seq<PageInput>, field: string, value: string, report: bool)
    returns (r: Extraction, count: nat)
    ensures r.folder == FolderName(field, value)
    ensures count == |r.rows| == |r.added|
    ensures forall j :: 0 <= j < |r.added| ==> r.added[j] < |pages|
    ensures forall j, k :: 0 <= j < k < |r.added| ==> r.added[j] < r.added[k]
    ensures forall i :: 0 <= i < |pages| ==> (i in r.added <==> Selects(PageText(pages[i]), value))
    ensures forall j :: 0 <= j < |r.rows| ==>
      r.rows[j].page == r.added[j] + 1 && r.rows[j].fields == ExtractFields(PageText(pages[r.added[j]]))
    ensures |r.progress| == (if report then |pages| else 0)
    ensures forall k :: 0 <= k < |r.progress| ==> r.progress[k] == (k + 1, |pages|)
    ensures r.files.Some? <==> count > 0
    ensures r.files.Some? ==> r.files.value == Outputs(CombinedFileNameAsWritten(field, value), SummaryFileName)
  {
    var texts := PageTexts(pages);
    var added, progress := SelectPages(texts, value, report);
    var rows := RowsOf(texts, added);
    var files := if |rows| > 0 then Some(Outputs(CombinedFileNameAsWritten(field, value), SummaryFileName)) else None;
    r := Extraction(FolderName(field, value), rows, added, progress, files);
    count := |rows|;
  }

  /** The extraction with the combined PDF named from the sanitised value;
      everything else is the extraction as written. */
  method ExtractByField(pages: seq<PageInput>, field: string, value: string, report: bool)
    returns (r: Extraction, count: nat)
    ensures r.folder == FolderName(field, value)
    ensures count == |r.rows| == |r.added|
    ensures forall j :: 0 <= j < |r.added| ==> r.added[j] < |pages|
    ensures forall j, k :: 0 <= j < k < |r.added| ==> r.added[j] < r.added[k]
    ensures forall i :: 0 <= i < |pages| ==> (i in r.added <==> Selects(PageText(pages[i]), value))
    ensures forall j :: 0 <= j < |r.rows| ==>
      r.rows[j].page == r.added[j] + 1 && r.rows[j].fields == ExtractFields(PageText(pages[r.added[j]]))
    ensures |r.progress| == (if report then |pages| else 0)
    ensures forall k :: 0 <= k < |r.progress| ==> r.progress[k] == (k + 1, |pages|)
    ensures r.files.Some? <==> count > 0
    ensures r.files.Some? ==> r.files.value == Outputs(CombinedFileName(field, value), SummaryFileName)
  {
    r, count := ExtractByFieldAsWritten(pages, field, value, report);
    if r.files.Some? {
      r := r.(files := Some(Outputs(CombinedFileName(field, value), SummaryFileName)));
    }
  }
}

=== FILE: selection_examples.dfy ===
/** Worked examples of the GUI's page selection on concrete pages. */
module SelectionExamples {
  import opened Text
  import opened PageSelection

  /** A page with no direct text is judged on its OCR text, and the value
      "p-9" selects the OCR text "PLATE NO : P-9" regardless of case. */
  lemma OcrPageSelected()
    ensures PageText(PageInput(Extracted(""), "PLATE NO : P-9")) == "PLATE NO : P-9"
    ensures Selects(PageText(PageInput(Extracted(""), "PLATE NO : P-9")), "p-9")
  {
    EmptyDirectUsesOcr("PLATE NO : P-9");
    PlateValueSelects();
  }

  /** An empty direct extraction falls back to the OCR text. */
  lemma EmptyDirectUsesOcr(ocr: string)
    ensures PageText(PageInput(Extracted(""), ocr)) == ocr
  {
    assert NeedsOcr(Extracted(""));
  }

  lemma PlateValueSelects()
    ensures Selects("PLATE NO : P-9", "p-9")
  {
    var t := "PLATE NO : P-9";
    assert CiAt(t, 11, "p-9") by {
      assert t[11] == 'P' && t[12] == '-' && t[13] == '9';
    }
  }

  /** A value that occurs nowhere, in any case, selects nothing. */
  lemma AbsentValueNotSelected()
    ensures !Selects("HEAT NO: H1", "Z")
  {
    var t := "HEAT NO: H1";
    forall i: nat
      ensures !CiAt(t, i, "Z")
    {
      if i < |t| {
        var c := t[i];
        assert c in "HEAT NO: H1";
        assert c != 'Z' && c != 'z';
        assert Lower(c) != Lower("Z"[0]);
        assert t[i + 0] == c;
      }
    }
  }
}

=== FILE: session.dfy ===
/** The console tool's run once the PDF's page texts are read: detect the
    fields, take the user's numbered choice and value, find the matching
    pages and name the output file. Reading the PDF, the prompts and writing
    the file are outside the model; the number and the value the user types
    are parameters. */
module ConsoleSession {
  import opened Text
  import opened Sorting
  import opened Discovery
  import opened Matcher
  import opened Naming

  /** How a run ends. */
  datatype Outcome =
    | NoFields
    | BadChoice
    | NoMatches(field: string, value: string)
    | Written(field: string, value: string, pages: seq<nat>, file: string)

  /** `fields[choice - 1]` as Python evaluates it: a negative index counts
      from the end of the list, any other index outside it raises. */
  function ChosenFieldAsWritten(fields: seq<string>, choice: int): (r: Option<string>)
    ensures r.Some? <==> -|fields| < choice <= |fields|
    ensures r.Some? ==> r.value in fields
    ensures r.Some? && choice >= 1 ==> r.value == fields[choice - 1]
    ensures r.Some? && choice <= 0 ==> r.value == fields[|fields| + choice - 1]
  {
    var i := choice - 1;
    if 0 <= i < |fields| then Some(fields[i])
    else if -|fields| <= i < 0 then Some(fields[|fields| + i])
    else None
  }

  /** As written, typing 0 for a menu numbered from 1 silently picks the last
      field instead of being refused. */
  lemma ChoiceZeroExample()
    ensures ChosenFieldAsWritten(["FLANGE NO", "HEAT NO"], 0) == Some("HEAT NO")
  {
  }

  /** The field the user picks from the menu numbered 1 to the number of
      fields; any other number picks nothing. */
  function ChosenField(fields: seq<string>, choice: int): (r: Option<string>)
    ensures r.Some? <==> 1 <= choice <= |fields|
    ensures r.Some? ==> r.value == fields[choice - 1]
    ensures r.Some? ==> r == ChosenFieldAsWritten(fields, choice)
  {
    if 1 <= choice <= |fields| then Some(fields[choice - 1]) else None
  }

  /** The run as written: no fields stops it, a number the list cannot be
      indexed with raises and stops it, no matching page stops it, and
      otherwise the matching pages are written to a file named after the
      field, slashes kept, and the stripped value. */
  method SessionAsWritten(texts: seq<string>, choice: int, typed: string) returns (out: Outcome)
    ensures out == NoFields <==> DetectFields(texts) == []
    ensures out == BadChoice <==> DetectFields(texts) != [] && !(-|DetectFields(texts)| < choice <= |DetectFields(texts)|)
    ensures out.NoMatches? || out.Written? ==>
      -|DetectFields(texts)| < choice <= |DetectFields(texts)|
      && out.field in DetectFields(texts) && out.value == Strip(typed)
    ensures (out.NoMatches? || out.Written?) && choice >= 1 ==> out.field == DetectFields(texts)[choice - 1]
    ensures (out.NoMatches? || out.Written?) && choice <= 0 ==>
      out.field == DetectFields(texts)[|DetectFields(texts)| + choice - 1]
    ensures out.NoMatches? ==> forall t :: 0 <= t < |texts| ==> !PageMatches(texts[t], out.field, out.value)
    ensures out.Written? ==>
      out.pages != []
      && (forall j, k :: 0 <= j < k < |out.pages| ==> out.pages[j] < out.pages[k])
      && (forall j :: 0 <= j < |out.pages| ==> out.pages[j] < |texts|)
      && (forall t :: 0 <= t < |texts| ==> (t in out.pages <==> PageMatches(texts[t], out.field, out.value)))
      && out.file == OutputFileNameAsWritten(out.field, out.value)
  {
    var fields := DetectFields(texts);
    if fields == [] {
      return NoFields;
    }
    var chosen := ChosenFieldAsWritten(fields, choice);
    if chosen.None? {
      return BadChoice;
    }
    var field, value := chosen.value, Strip(typed);
    var matched := FindMatchingPages(texts, field, value);
    if matched == [] {
      return NoMatches(field, value);
    }
    out := Written(field, value, matched, OutputFileNameAsWritten(field, value));
  }

  /** The run with the three corrections: only non-empty labels are offered,
      only a number on the menu is accepted and the output name is
      sanitised. No fields stops it, a number outside the menu stops it, no
      matching page stops it, and otherwise the matching pages are written
      to a file named after the field and the stripped value. */
  method Session(texts: seq<string>, choice: int, typed: string) returns (out: Outcome)
    ensures out == NoFields <==> DetectNamedFields(texts) == []
    ensures out == BadChoice <==> DetectNamedFields(texts) != [] && !(1 <= choice <= |DetectNamedFields(texts)|)
    ensures out.NoMatches? || out.Written? ==>
      1 <= choice <= |DetectNamedFields(texts)| && out.field == DetectNamedFields(texts)[choice - 1]
      && out.value == Strip(typed)
    ensures out.NoMatches? ==> forall t :: 0 <= t < |texts| ==> !PageMatches(texts[t], out.field, out.value)
    ensures out.Written? ==>
      out.pages != []
      && (forall j, k :: 0 <= j < k < |out.pages| ==> out.pages[j] < out.pages[k])
      && (forall j :: 0 <= j < |out.pages| ==> out.pages[j] < |texts|)
      && (forall t :: 0 <= t < |texts| ==> (t in out.pages <==> PageMatches(texts[t], out.field, out.value)))
      && out.file == OutputFileName(out.field, out.value) && SlashFree(out.file)
  {
    var fields := DetectNamedFields(texts);
    if fields == [] {
      return NoFields;
    }
    var chosen := ChosenField(fields, choice);
    if chosen.None? {
      return BadChoice;
    }
    var field, value := chosen.value, Strip(typed);
    var matched := FindMatchingPages(texts, field, value);
    if matched == [] {
      return NoMatches(field, value);
    }
    out := Written(field, value, matched, OutputFileName(field, value));
  }
}

=== FILE: sorting.dfy ===
/** Python's `sorted(set(labels))` on strings: the distinct strings in
    ascending code-point order. Strings compare lexicographically, and a
    proper prefix is smaller. */
module Sorting {

  /** `a < b` on Python strings. */
  predicate StrLt(a: string, b: string) {
    if a == [] then b != []
    else if b == [] then false
    else if a[0] != b[0] then a[0] < b[0]
    else StrLt(a[1..], b[1..])
  }

  lemma {:induction false} StrLtIrreflexive(a: string)
    ensures !StrLt(a, a)
  {
    if a != [] {
      StrLtIrreflexive(a[1..]);
    }
  }

  /** Any two strings are equal or ordered one way. */
  lemma {:induction false} StrLtTotal(a: string, b: string)
    ensures StrLt(a, b) || a == b || StrLt(b, a)
  {
    if a != [] && b != [] && a[0] == b[0] {
      StrLtTotal(a[1..], b[1..]);
      if a[1..] == b[1..] {
        assert a == [a[0]] + a[1..] && b == [b[0]] + b[1..];
      }
    }
  }

  lemma {:induction false} StrLtTrans(a: string, b: string, c: string)
    requires StrLt(a, b) && StrLt(b, c)
    ensures StrLt(a, c)
  {
    if a != [] && a[0] == b[0] && b[0] == c[0] {
      StrLtTrans(a[1..], b[1..], c[1..]);
    }
  }

  lemma StrLtAsym(a: string, b: string)
    requires StrLt(a, b)
    ensures !StrLt(b, a)
  {
    if StrLt(b, a) {
      StrLtTrans(a, b, a);
      StrLtIrreflexive(a);
    }
  }

  /** Strictly ascending: sorted with no duplicates. */
  predicate Ascending(xs: seq<string>) {
    forall i, j :: 0 <= i < j < |xs| ==> StrLt(xs[i], xs[j])
  }

  /** Adds `x` to an ascending sequence, keeping it ascending. */
  function Insert(xs: seq<string>, x: string): (r: seq<string>)
    requires Ascending(xs)
    ensures Ascending(r)
    ensures forall y :: y in r <==> y in xs || y == x
  {
    if xs == [] then [x]
    else if xs[0] == x then xs
    else if StrLt(x, xs[0]) then
      assert forall j :: 0 < j < |xs| ==> StrLt(x, xs[j]) by {
        forall j | 0 < j < |xs|
          ensures StrLt(x, xs[j])
        {
          StrLtTrans(x, xs[0], xs[j]);
        }
      }
      [x] + xs
    else
      StrLtTotal(x, xs[0]);
      var t := Insert(xs[1..], x);
      assert forall y :: y in t ==> StrLt(xs[0], y) by {
        forall y | y in t
          ensures StrLt(xs[0], y)
        {
          if y != x {
            var j :| 0 <= j < |xs[1..]| && xs[1..][j] == y;
            assert xs[j + 1] == y;
          }
        }
      }
      [xs[0]] + t
  }

  /** The distinct members of `xs`, ascending. */
  function SortedSet(xs: seq<string>): (r: seq<string>)
    ensures Ascending(r)
    ensures forall y :: y in r <==> y in xs
  {
    if xs == [] then []
    else
      var t := SortedSet(xs[1..]);
      assert forall y :: y in xs <==> y == xs[0] || y in xs[1..];
      Insert(t, xs[0])
  }

  /** An ascending sequence is determined by its members, so `SortedSet` is
      the one list `sorted(set(xs))` can return. */
  lemma {:induction false} AscendingUnique(a: seq<string>, b: seq<string>)
    requires Ascending(a) && Ascending(b)
    requires forall y :: y in a <==> y in b
    ensures a == b
    decreases |a|
  {
    if a != [] {
      assert a[0] in b;
    }
    if b != [] {
      assert b[0] in a;
    }
    if a != [] && b != [] {
      if a[0] != b[0] {
        var k :| 0 <= k < |b| && b[k] == a[0];
        var m :| 0 <= m < |a| && a[m] == b[0];
        assert StrLt(b[0], a[0]);
        assert StrLt(a[0], b[0]);
        StrLtAsym(a[0], b[0]);
      }
      forall y
        ensures y in a[1..] <==> y in b[1..]
      {
        if y in a[1..] {
          var i :| 0 <= i < |a[1..]| && a[1..][i] == y;
          assert StrLt(a[0], a[i + 1]);
          StrLtIrreflexive(y);
          assert y != a[0] && y in b;
        }
        if y in b[1..] {
          var i :| 0 <= i < |b[1..]| && b[1..][i] == y;
          assert StrLt(b[0], b[i + 1]);
          StrLtIrreflexive(y);
          assert y != b[0] && y in a;
        }
      }
      AscendingUnique(a[1..], b[1..]);
      assert a == [a[0]] + a[1..] && b == [b[0]] + b[1..];
    }
  }
}

=== FILE: text.dfy ===
/** Character and string helpers shared by every part of the model: Python's
    `str.isspace`, `lower`, `upper`, `strip`, `replace` and the `in` substring
    test, restricted to ASCII (see README, "Left out"). */
module Text {

  datatype Option<T> = None | Some(value: T)

  /** `str.isspace()` on one character: tab, line feed, vertical tab, form
      feed, carriage return, the four ASCII separators 0x1C..0x1F and space. */
  predicate IsSpace(c: char) {
    9 <= c as int <= 13 || 28 <= c as int <= 32
  }

  predicate IsUpper(c: char) { 'A' <= c <= 'Z' }

  predicate IsLower(c: char) { 'a' <= c <= 'z' }

  function Lower(c: char): (r: char)
    ensures IsUpper(c) ==> IsLower(r) && r as int == c as int + 32
    ensures !IsUpper(c) ==> r == c
  {
    if IsUpper(c) then (c as int + 32) as char else c
  }

  function Upper(c: char): (r: char)
    ensures IsLower(c) ==> IsUpper(r) && r as int + 32 == c as int
    ensures !IsLower(c) ==> r == c
  {
    if IsLower(c) then (c as int - 32) as char else c
  }

  /** `s.lower()` */
  function LowerStr(s: string): (r: string)
    ensures |r| == |s|
    ensures forall k :: 0 <= k < |s| ==> r[k] == Lower(s[k])
  {
    seq(|s|, k requires 0 <= k < |s| => Lower(s[k]))
  }

  /** `s.upper()` */
  function UpperStr(s: string): (r: string)
    ensures |r| == |s|
    ensures forall k :: 0 <= k < |s| ==> r[k] == Upper(s[k])
  {
    seq(|s|, k requires 0 <= k < |s| => Upper(s[k]))
  }

  /** `w` occurs in `s` at position `i`, ignoring ASCII case. */
  predicate CiAt(s: string, i: nat, w: string) {
    i + |w| <= |s| && forall k :: 0 <= k < |w| ==> Lower(s[i + k]) == Lower(w[k])
  }

  /** A word with a character that occurs nowhere in `s`, in either case,
      occurs nowhere in `s`. */
  lemma CharAbsent(s: string, w: string, j: nat)
    requires j < |w|
    requires forall k :: 0 <= k < |s| ==> Lower(s[k]) != Lower(w[j])
    ensures forall p: nat :: !CiAt(s, p, w)
  {
    forall p: nat
      ensures !CiAt(s, p, w)
    {
      if p + |w| <= |s| {
        assert Lower(s[p + j]) != Lower(w[j]);
      }
    }
  }

  /** Length of the whitespace run that starts at `i`. */
  function SpaceRun(s: string, i: nat): (n: nat)
    requires i <= |s|
    ensures i + n <= |s|
    decreases |s| - i
  {
    if i < |s| && IsSpace(s[i]) then 1 + SpaceRun(s, i + 1) else 0
  }

  /** The run is whitespace and cannot be extended. */
  lemma {:induction false} SpaceRunSpec(s: string, i: nat)
    requires i <= |s|
    ensures forall t {:trigger IsSpace(s[t])} :: i <= t < i + SpaceRun(s, i) ==> IsSpace(s[t])
    ensures i + SpaceRun(s, i) == |s| || !IsSpace(s[i + SpaceRun(s, i)])
    decreases |s| - i
  {
    if i < |s| && IsSpace(s[i]) {
      SpaceRunSpec(s, i + 1);
    }
  }

  /** `s.lstrip()` */
  function TrimStart(s: string): (r: string)
    ensures |r| <= |s| && r == s[|s| - |r|..]
    ensures |r| > 0 ==> !IsSpace(r[0])
    ensures forall k {:trigger IsSpace(s[k])} :: 0 <= k < |s| - |r| ==> IsSpace(s[k])
  {
    if |s| > 0 && IsSpace(s[0]) then TrimStart(s[1..]) else s
  }

  /** `s.rstrip()` */
  function TrimEnd(s: string): (r: string)
    ensures |r| <= |s| && r == s[..|r|]
    ensures |r| > 0 ==> !IsSpace(r[|r| - 1])
    ensures forall k {:trigger IsSpace(s[k])} :: |r| <= k < |s| ==> IsSpace(s[k])
  {
    if |s| > 0 && IsSpace(s[|s| - 1]) then TrimEnd(s[..|s| - 1]) else s
  }

  /** `r` is `s` with `i` whitespace characters cut from the front and the
      rest of what follows `r` also whitespace. */
  predicate TrimmedAt(s: string, i: nat, r: string) {
    i + |r| <= |s| && r == s[i..i + |r|]
    && (forall k {:trigger IsSpace(s[k])} :: 0 <= k < i ==> IsSpace(s[k]))
    && (forall k {:trigger IsSpace(s[k])} :: i + |r| <= k < |s| ==> IsSpace(s[k]))
  }

  /** `s.strip()`: the result is the slice of `s` between its leading and
      trailing whitespace. */
  function Strip(s: string): (r: string)
    ensures |r| > 0 ==> !IsSpace(r[0]) && !IsSpace(r[|r| - 1])
    ensures exists i: nat :: TrimmedAt(s, i, r)
  {
    var t := TrimStart(s);
    var r := TrimEnd(t);
    assert r == s[|s| - |t|..][..|r|];
    assert TrimmedAt(s, |s| - |t|, r);
    r
  }

  /** Stripping never touches a string with no whitespace at either end. */
  lemma StripNoSpace(s: string)
    requires |s| > 0 ==> !IsSpace(s[0]) && !IsSpace(s[|s| - 1])
    ensures Strip(s) == s
  {
  }

  /** One trailing space is stripped off a string whose ends are not
      whitespace. */
  lemma StripTrailingSpace(w: string)
    requires |w| > 0 && !IsSpace(w[0]) && !IsSpace(w[|w| - 1])
    ensures Strip(w + " ") == w
  {
    var s := w + " ";
    assert TrimStart(s) == s;
    assert s[..|s| - 1] == w;
    assert TrimEnd(s) == TrimEnd(w);
  }

  /** A string of whitespace strips to nothing. */
  lemma {:induction false} StripBlank(s: string)
    requires forall k :: 0 <= k < |s| ==> IsSpace(s[k])
    ensures TrimStart(s) == [] && Strip(s) == []
  {
    if s != [] {
      StripBlank(s[1..]);
    }
  }

  /** `s.replace(a, b)` for single characters: every `a` becomes `b`. */
  function ReplaceChar(s: string, a: char, b: char): (r: string)
    ensures |r| == |s|
    ensures forall k :: 0 <= k < |s| ==> r[k] == (if s[k] == a then b else s[k])
  {
    if s == [] then [] else [if s[0] == a then b else s[0]] + ReplaceChar(s[1..], a, b)
  }

  /** Number of occurrences of `c` in `s`. */
  function Count(s: string, c: char): (n: nat)
    ensures n <= |s|
  {
    if s == [] then 0 else (if s[0] == c then 1 else 0) + Count(s[1..], c)
  }

  /** `a` can be obtained from `b` by deleting characters. */
  predicate IsSubseq<T(==)>(a: seq<T>, b: seq<T>) {
    if a == [] then true
    else if b == [] then false
    else if a[0] == b[0] then IsSubseq(a[1..], b[1..])
    else IsSubseq(a, b[1..])
  }

  /** `s.replace(c, "")`: the three ensures pin the result down uniquely, it is
      the subsequence of `s` made of exactly its characters other than `c`. */
  function RemoveChar(s: string, c: char): (r: string)
    ensures forall k :: 0 <= k < |r| ==> r[k] != c
    ensures |r| == |s| - Count(s, c)
    ensures IsSubseq(r, s)
  {
    if s == [] then []
    else if s[0] == c then RemoveChar(s[1..], c)
    else
      var t := RemoveChar(s[1..], c);
      assert ([s[0]] + t)[1..] == t;
      [s[0]] + t
  }

  /** `w` occurs in `s` at position `i`. */
  predicate OccursAt(s: string, i: nat, w: string) {
    i + |w| <= |s| && s[i..i + |w|] == w
  }

  /** `w in s` (Python substring test), by scanning start positions. */
  function Contains(s: string, w: string): (r: bool)
    ensures r <==> exists i: nat :: OccursAt(s, i, w)
    decreases |s|
  {
    if |w| > |s| then false
    else if s[..|w|] == w then assert OccursAt(s, 0, w); true
    else
      ContainsTail(s, w);
      Contains(s[1..], w)
  }

  /** The positions of `s[1..]` are those of `s` shifted by one. */
  lemma ContainsTail(s: string, w: string)
    requires |s| > 0 && |w| <= |s|
    ensures (exists i: nat :: OccursAt(s[1..], i, w)) ==> (exists i: nat :: OccursAt(s, i, w))
    ensures s[..|w|] != w && (exists i: nat :: OccursAt(s, i, w)) ==> (exists i: nat :: OccursAt(s[1..], i, w))
  {
    if exists i: nat :: OccursAt(s[1..], i, w) {
      var i: nat :| OccursAt(s[1..], i, w);
      assert s[i + 1..i + 1 + |w|] == s[1..][i..i + |w|];
      assert OccursAt(s, i + 1, w);
    }
    if s[..|w|] != w && exists i: nat :: OccursAt(s, i, w) {
      var i: nat :| OccursAt(s, i, w);
      assert i > 0;
      assert s[1..][i - 1..i - 1 + |w|] == s[i..i + |w|];
      assert OccursAt(s[1..], i - 1, w);
    }
  }

  /** Lower-casing both sides and testing containment is the same as finding
      the needle at some position up to ASCII case. */
  lemma ContainsLowerIff(s: string, w: string)
    ensures Contains(LowerStr(s), LowerStr(w)) <==> exists i: nat :: CiAt(s, i, w)
  {
    var ls, lw := LowerStr(s), LowerStr(w);
    if Contains(ls, lw) {
      var i: nat :| OccursAt(ls, i, lw);
      forall k | 0 <= k < |w|
        ensures Lower(s[i + k]) == Lower(w[k])
      {
        assert ls[i..i + |lw|][k] == lw[k];
      }
      assert CiAt(s, i, w);
    }
    if exists i: nat :: CiAt(s, i, w) {
      var i: nat :| CiAt(s, i, w);
      assert ls[i..i + |lw|] == lw;
      assert OccursAt(ls, i, lw);
    }
  }
}
